=== FILE: README.md ===
# Habitica Terraform provider: a verified model of its core

This project models, in Dafny, the decision logic of a Terraform provider for the Habitica
task-management service, and proves properties of that model. It covers four parts:

* **The API client** (`internal/client/client.go`):
  * construction with defaults;
  * the attempt loop of `do`: rate gate, exponential backoff, retry on transport errors,
    body-read errors and HTTP 429, terminal API errors, and cancellation;
  * the rate budget read from the `X-RateLimit-*` headers;
  * the tag and task caches: lookup, populate-on-miss, and invalidation on successful writes;
  * the uncached webhook scan.
* **The `user_tasks` data source**: it buckets every task by type and resolves tag IDs to
  tag names.
* **The daily, habit and webhook resources**: their conversions between Terraform's
  tri-state attribute values (null, unknown, known) and the client's records. These include
  the repeat-day, up/down and empty-list defaults, and the `YYYY-MM-DD` start-date round
  trip.
* **The import generator** (`scripts/generate_imports.py`): resource-name sanitising, tag
  references, escaping of quoted values, and the defaults written for absent keys.

The client is a state record: a rate budget plus two optional maps. Each operation takes it
and returns the next state with its result. Everything the environment decides is an input:
* the outcome of each attempt (transport error, body-read error, or a status with its rate
  headers and body);
* the clock reading at each rate check;
* whether the caller's context fired during each wait;
* what a successful body decodes to.

Time is integer nanoseconds since the Unix epoch, and the reset time is in Unix seconds.

| module | file | models |
|---|---|---|
| Wrappers | wrappers.dfy | `Option` and `Result` |
| Decimal | decimal.dfy | the decimal integer syntax of `strconv.Atoi` / `ParseInt(s, 10, 64)` |
| Dates | dates.dfy | `time.Parse` / `Format` with the layout `2006-01-02` |
| Types | types.dfy | the records of `internal/client/types.go` |
| Errors | errors.dfy | the error cases the client can return |
| RateLimit | ratelimit.dfy | `updateRateLimits` and the rate gate |
| Retry | retry.dfy | the attempt loop of `do`, as a recursive function and as the source's loop |
| Collections | collections.dfy | indexing by ID (last wins), ID resolution, first-match scan |
| EntityCache | entitycache.dfy | populate and lookup of one entity cache |
| Client | client.dfy | `New` and every typed client operation |
| HostValues | hostvalues.dfy | Terraform attribute values, `getBoolWithDefault`, list read-back |
| DailyResource | daily.dfy | `modelToTask`, `updateModelFromTask` of the daily resource |
| HabitResource | habit.dfy | the task built by habit Create/Update, `updateModelFromTask` |
| WebhookResource | webhook.dfy | `modelToWebhook`, `updateModelFromWebhook` |
| UserTasks | usertasks.dfy | the `Read` of the `user_tasks` data source |
| ImportGen | importgen.dfy | the string logic of the import generator |

Where the code and its surrounding documentation or tests disagree, the model follows the
code:
* `Task` carries a `completed` flag. The data source reads `Completed`, but the `Task`
  struct in `internal/client/types.go` does not declare it.
* `Config` has no base-URL field. The client always uses `https://habitica.com/api/v3`,
  even though some tests set one.

## Model

| member | source | states |
|---|---|---|
| Decimal.ParseInt64 | internal/client/client.go:185-195 | an accepted header value has an optional sign then digits, fits in 64 bits, and its sign matches its leading character |
| Decimal.ParseSignedDigits | internal/client/client.go:186-192 | every optional sign followed by digits, leading zeros included, is read as its signed value when that fits in 64 bits and rejected when it does not |
| Decimal.ParseFormatRoundTrip | internal/client/client.go:186-193 | every 64-bit integer written in decimal is read back as itself by the header parser |
| Dates.ParseDate | internal/resources/daily/resource.go:274-279 | a start date is accepted only as ten characters with dashes at positions 4 and 7, and names a real calendar date with a four-digit year |
| Dates.FormatOfParse | internal/resources/daily/resource.go:274-279 | formatting an accepted start date with the same layout gives back the exact string that was parsed |
| Dates.ParseOfFormat | internal/resources/daily/resource.go:337-339 | a date written back to the model parses to the same date (four-digit years) |
| RateLimit.ResetSeconds | internal/client/client.go:191-194 | the reset instant `time.Unix` makes of a header's seconds: those seconds themselves unless adding the year-1 offset overflows int64, where it wraps |
| RateLimit.Update | internal/client/client.go:181-196 | each budget field either keeps its value or takes the value its header parses to, and takes it whenever the header parses; the reset as `time.Unix` stores it |
| RateLimit.UpdateFromHeaders | internal/client/client.go:185-195 | headers carrying two 64-bit integers set the budget to exactly those values, for any reset before the int64 overflow of `time.Unix` |
| RateLimit.OverflowingResetOpen | internal/client/client.go:191-194 | a reset header above MaxInt64 − 62135596800 wraps to before year 1, so it never makes the client wait |
| RateLimit.UpdateFailsOpen | internal/client/client.go:185-195 | absent or malformed headers leave the budget unchanged |
| RateLimit.GateWait | internal/client/client.go:115-126 | an attempt waits if and only if remaining < buffer and now is before the reset, and then for exactly reset - now (saturated at the largest Duration) |
| RateLimit.InitialBudgetOpen | internal/client/client.go:79-89 | the initial budget (30 remaining, zero reset time) never makes the first attempt wait |
| Retry.Perform | internal/client/client.go:104-175 | one loop pass either stops the call after k+1 requests, stops it during an interrupted wait after k, or records a failure and continues with the budget its response's headers leave; an interrupted backoff, or an interrupted rate wait the gate began, always ends it with the context error after k requests; it never yields "max retries exceeded" |
| Retry.Attempt | internal/client/client.go:104-178 | at most maxRetries+1 requests; "max retries exceeded" exactly after maxRetries+1; a cancellation only at an attempt whose wait was interrupted |
| Retry.AttemptOnSchedule | internal/client/client.go:105-112 | the backoffs begun are exactly base·2^(k-1) for attempts 1, 2, ..., one before each attempt after the first |
| Retry.Do | internal/client/client.go:103-178 | a call never sends more than maxRetries+1 requests |
| Retry.DoOnSchedule | internal/client/client.go:105-112 | no wait precedes attempt 0, and the wait before attempt k ≥ 1 is the k-th backoff |
| Retry.AttemptSettles | internal/client/client.go:160-175 | after retryable failures up to attempt n, a non-429 response at n ends the call with n+1 requests |
| Retry.RetriedUntilSuccess | internal/client/client.go:161-175 | k retryable failures (k ≤ maxRetries) followed by a 2xx succeed with that body after k+1 requests |
| Retry.TerminalNotRetried | internal/client/client.go:167-173 | a status ≥ 400 other than 429 stops after one request; the error carries the status and the envelope message if non-empty, else the raw body |
| Retry.AttemptExhausts | internal/client/client.go:104-178 | retryable failures from attempt k to the last end the call with "max retries exceeded" after maxRetries+1 requests |
| Retry.RetriesExhausted | internal/client/client.go:178 | all attempts failing retryably gives exactly maxRetries+1 requests and "max retries exceeded" wrapping the last failure |
| Retry.AttemptCancelled | internal/client/client.go:107-109 | a context firing during the backoff before attempt n ends the call with the context error after n requests |
| Retry.CancelledDuringBackoff | internal/client/client.go:105-112 | cancellation during a backoff returns the context error immediately, with no further request |
| Retry.AttemptRateWaitCancelled | internal/client/client.go:115-123 | a context firing while attempt n waits at the rate gate (given the budget the earlier responses left) ends the call with the context error after n requests |
| Retry.CancelledDuringRateWait | internal/client/client.go:115-123 | cancellation during a rate-gate wait returns the context error immediately, with no further request |
| Retry.BackoffExact | internal/client/client.go:106 | without overflow, the delay before attempt k is base·2^(k-1) |
| Retry.BackoffDoubles | internal/client/client.go:106 | successive backoffs double while they fit in a Duration |
| Retry.BackoffVanishes | internal/client/client.go:106 | from attempt 65 on, the 64-bit shift wraps to zero and the backoff is zero |
| Retry.Execute | internal/client/client.go:93-179 | the counted loop with early returns computes exactly the recursive model of the call |
| Collections.LastIndexOf | internal/client/client.go:284-287 | finds the last item with a given ID, or reports that none has it |
| Collections.FirstIndexOf | internal/client/client.go:497-501 | finds the first item with a given ID, or reports that none has it |
| Collections.Index | internal/client/client.go:284-287 | a map built from a list holds every ID of the list, each mapped to the last item carrying it |
| Collections.Resolve | internal/datasources/user_tasks/datasource.go:130-135 | resolved values never outnumber the IDs; if all IDs are known they are the values in ID order; if none is known, nothing; every resolved value is the value of some known ID |
| Collections.ResolveOne | internal/datasources/user_tasks/datasource.go:130-135 | a single ID resolves to its value when known and to nothing otherwise |
| Collections.ResolveAppend | internal/datasources/user_tasks/datasource.go:130-135 | resolution is piecewise over concatenation, so the result follows the IDs' order |
| EntityCache.Populate | internal/client/client.go:265-290 | a populated cache is left alone without a request; otherwise the list is requested, and on success a fresh index of it replaces the cache, while on failure it stays unpopulated |
| EntityCache.Get | internal/client/client.go:238-262 | a hit answers from the cache; an absent ID in a populated cache is "not found" without a request; a failed list surfaces its error; duplicate IDs resolve to the last entry; the returned entity carries the requested ID |
| Client.New | internal/client/client.go:58-90 | non-positive buffer, retries and delay become 5, 5 and 2s; an empty app name becomes TerraformHabitica; x-client is author-app; caches start unpopulated |
| Client.NewSettingsStable | internal/client/client.go:59-77 | defaults are applied once: a client's effective settings fed back give the same client |
| Client.NewClientOpen | internal/client/client.go:88 | a fresh client's first request never waits at the rate gate |
| Client.Fetch | internal/client/client.go:429-441 | a list or write call makes one request; a transport or API failure is returned as is; an undecodable success body is an error |
| Client.GetAllTags | internal/client/client.go:444-456 | one request, and neither cache is touched |
| Client.GetAllTasks | internal/client/client.go:429-441 | one request, and neither cache is touched |
| Client.GetWebhooks | internal/client/client.go:476-488 | one request, and neither cache is touched |
| Client.GetTag | internal/client/client.go:238-262 | a populated tag cache answers with no request and no state change; an unpopulated one costs exactly one request, is populated only if the list succeeds, and then answers with the last listed tag of that ID or "not found"; the task cache is untouched |
| Client.GetTask | internal/client/client.go:343-367 | the same discipline over the task cache, answering a cold lookup with the last listed task of that ID or "not found", and leaving the tag cache untouched |
| Client.SaveTag | internal/client/client.go:221-235 | a tag create or update drops the tag cache exactly when the request and its decoding both succeed |
| Client.DeleteTag | internal/client/client.go:310-316 | a tag delete drops the tag cache exactly when the request succeeds; a failed delete leaves it intact |
| Client.SaveTask | internal/client/client.go:327-340 | a task create or update drops the task cache exactly when the request and its decoding both succeed |
| Client.DeleteTask | internal/client/client.go:414-420 | a task delete drops the task cache exactly when the request succeeds |
| Client.SaveWebhook | internal/client/client.go:461-473 | webhook writes never touch either cache |
| Client.DeleteWebhook | internal/client/client.go:522-525 | webhook deletes never touch either cache |
| Client.GetWebhook | internal/client/client.go:491-504 | always one request; returns the first webhook with the ID, or "not found" exactly when none has it |
| Client.TagWriteForcesRefetch | internal/client/client.go:233 | after a successful tag write, the next tag lookup makes a request |
| Client.TaskDeleteForcesRefetch | internal/client/client.go:416-418 | after a successful task delete, the next task lookup makes a request, while a populated tag cache still answers for free |
| Client.PopulatedCachesStay | internal/client/client.go:270-272 | once populated, a cache is neither refetched nor replaced by any sequence of lookups |
| Client.BulkFetchesBounded | internal/client/client.go:265-290 | in any interleaving of lookups, each kind requests its list at most once more than the number of failed lists |
| HostValues.WithDefault | internal/resources/daily/resource.go:391-396 | a null or unknown value gives the default, a known one its value |
| HostValues.DefaultMattersUnlessKnown | internal/resources/habit/resource.go:256-261 | the default decides the result if and only if the value is not known |
| HostValues.Elements | internal/resources/daily/resource.go:321-325 | a null list copies out as absent, a known list as its elements in order |
| HostValues.ListOf | internal/resources/daily/resource.go:377-383 | on read-back an empty list becomes null and a non-empty one keeps its elements in order |
| HostValues.ListRoundTrip | internal/resources/daily/resource.go:353-383 | copying out and reading back returns a list attribute if and only if it is null or non-empty |
| DailyResource.RepeatOf | internal/resources/daily/resource.go:282-303 | no block gives Monday to Friday; in a block each weekday is on unless explicitly false and each weekend day off unless explicitly true |
| DailyResource.EmptyBlockIsDefault | internal/resources/daily/resource.go:282-303 | a block with no day set sends the same days as no block |
| DailyResource.StartDateOf | internal/resources/daily/resource.go:274-279 | a start date is sent if and only if the value is known and a valid YYYY-MM-DD date, and it formats back to the configured string |
| DailyResource.ModelToTask | internal/resources/daily/resource.go:264-328 | type "daily", no ID, repeat always present, start date as above, list attributes copied in order |
| DailyResource.UpdateModelFromTask | internal/resources/daily/resource.go:330-384 | ID unchanged; start date and repeat untouched when the task lacks them; list attributes null exactly when empty |
| DailyResource.SettledRoundTrip | internal/resources/daily/resource.go:264-384 | a plan with known values, a valid date and canonical lists reads back unchanged from the task it produced |
| DailyResource.TaskRoundTrip | internal/resources/daily/resource.go:330-384 | converting a refreshed model again sends the task's text, schedule, start date, repeat days and lists |
| HabitResource.Scored | internal/resources/habit/resource.go:117-127 | up defaults to true and down to false; explicit values win |
| HabitResource.CreateTask | internal/resources/habit/resource.go:116-136 | the Task struct Create builds has Type "habit", and a nil Tags slice exactly when the tags attribute is null |
| HabitResource.UpdateTask | internal/resources/habit/resource.go:181-202 | the Task struct Update builds has an empty Type, and an empty Tags slice for a null attribute |
| HabitResource.CreateUpdateDiffer | internal/resources/habit/resource.go:120-202 | the structs Create and Update build differ only in Type and in the Tags slice for a null attribute |
| Types.TagsOnWire | internal/client/types.go:26 | the encoded request carries no tags member exactly when the Tags slice is nil or empty, and otherwise the IDs in order |
| HabitResource.UpdateKeepsHeldTags | internal/resources/habit/resource.go:192-202 | for a null or empty tag list, Update's request carries no tags, the same as Create's, so the service keeps the tags it holds |
| HabitResource.IntendedUpdateTags | internal/resources/habit/resource.go:192-202 | always sending the configured list, empty for a null attribute, leaves the service holding exactly the configured tags; where the list is non-empty, this is what the program sends |
| HabitResource.UpdateModelFromTask | internal/resources/habit/resource.go:230-249 | ID unchanged; up and down change only when the task carries them; tags null exactly when empty |
| HabitResource.SettledRoundTrip | internal/resources/habit/resource.go:230-249 | a settled plan reads back unchanged from what Create or Update sent |
| HabitResource.DefaultsReadBack | internal/resources/habit/resource.go:235-240 | an unset up or down reads back as the default that was sent |
| WebhookResource.OptionsOf | internal/resources/webhook/resource.go:229-237 | no options block gives all five flags off; in a block a flag is on only when known true |
| WebhookResource.ModelToWebhook | internal/resources/webhook/resource.go:221-240 | the ID is left empty and URL, label, type and enabled are copied |
| WebhookResource.UpdateModelFromWebhook | internal/resources/webhook/resource.go:242-255 | ID unchanged, options always present and mirroring the webhook |
| WebhookResource.WebhookRoundTrip | internal/resources/webhook/resource.go:221-255 | refreshing from a webhook and converting back gives that webhook with its ID cleared |
| WebhookResource.SettledRoundTrip | internal/resources/webhook/resource.go:242-255 | a plan with every attribute known reads back unchanged |
| UserTasks.TagNames | internal/datasources/user_tasks/datasource.go:116-119 | every tag ID maps to a name, and a later tag with the same ID wins |
| UserTasks.TagNamesOf | internal/datasources/user_tasks/datasource.go:130-135 | resolved names follow the task's ID order and drop unknown IDs, so never outnumber them |
| UserTasks.Buckets | internal/datasources/user_tasks/datasource.go:137-166 | each bucket holds as many entries as there are tasks of its type, each built from such a task |
| UserTasks.KindsPartition | internal/datasources/user_tasks/datasource.go:137-166 | a task lands in at most one bucket, so outputs never outnumber tasks |
| UserTasks.BucketsAppend | internal/datasources/user_tasks/datasource.go:128-166 | bucketing is piecewise over concatenation, so every bucket keeps input order |
| UserTasks.BucketsOne | internal/datasources/user_tasks/datasource.go:137-166 | one task becomes one entry of its type's bucket; any other type is dropped |
| UserTasks.NoTasksNoOutput | internal/datasources/user_tasks/datasource.go:122-126 | zero tasks give three empty lists |
| UserTasks.Categorize | internal/datasources/user_tasks/datasource.go:122-167 | the source's append loop computes exactly the buckets |
| UserTasks.Read | internal/datasources/user_tasks/datasource.go:100-167 | a failed task list stops after one request with no tag request; a failed tag list yields no output; otherwise the buckets with resolved names |
| ImportGen.ToResourceName | scripts/generate_imports.py:31-37 | only a-z, 0-9 and _; never a leading digit; length min(len, 50) plus 1 for the prefix, which is an underscore written before a digit-led title; empty stays empty; each kept character is the lower-cased or replaced input character |
| ImportGen.ResourceNameStable | scripts/generate_imports.py:33-37 | a generated name of at most 50 characters is left unchanged by a second pass |
| ImportGen.TagLookup | scripts/generate_imports.py:46 | every tag ID maps to its tag's resource name, and a later duplicate wins |
| ImportGen.TagRefs | scripts/generate_imports.py:117 | references exist only for IDs the lookup knows, in the task's order; each is the reference of some name in the lookup |
| ImportGen.TagRefsAppend | scripts/generate_imports.py:137 | references are piecewise over the task's IDs |
| ImportGen.Unescape | scripts/generate_imports.py:119-124 | how HCL reads a quoted value: it is read only if it holds no literal line break and every quote in it is preceded by a backslash, and what it reads as is no longer than the written text |
| ImportGen.EscapeRoundTrip | scripts/generate_imports.py:119 | HCL reads a value with backslashes and quotes escaped back as the original text exactly when the text has no line break, and rejects it otherwise |
| ImportGen.EscapeNotes | scripts/generate_imports.py:119 | doubling backslashes and then escaping quotes escapes each character once |
| ImportGen.NotesEscapeIsEscape | scripts/generate_imports.py:139 | the two replace passes equal per-character escaping |
| ImportGen.EscapeTextAsWritten | scripts/generate_imports.py:123 | task text is escaped for quotes only; text without quotes is written unchanged |
| ImportGen.TextEscapeAsWrittenBreaks | scripts/generate_imports.py:161 | a title that is one backslash gives a value HCL cannot read, and a backslash before n reads back as a newline |
| ImportGen.TextUnicodeEscapeAsWritten | scripts/generate_imports.py:123 | a title holding `\u0041` reads back as "A" |
| ImportGen.NotesEscapeAsWrittenBreaks | scripts/generate_imports.py:119 | notes with a line break are written as a value HCL rejects, a two-line note among them |
| ImportGen.Quote | scripts/generate_imports.py:119-124 | escaping backslash, quote, CR and LF makes every text read back as itself, and equals the notes escaping on one-line text |
| ImportGen.QuoteAgreesWithScript | scripts/generate_imports.py:119-124 | the corrected escaping equals the notes escaping on one-line text, and the title escaping on one-line text without a backslash |
| ImportGen.EscapeAgreesWithoutBackslash | scripts/generate_imports.py:161 | without backslashes, escaping backslashes and quotes and the written quote-only escaping coincide |
| ImportGen.ImportStartDate | scripts/generate_imports.py:142-144 | the start date is the first ten characters of the timestamp, or empty when absent |
| ImportGen.ImportedStartDateReads | scripts/generate_imports.py:142-144 | an ISO timestamp imports as its calendar date when the daily resource reads it; an absent one sends no start date |
| ImportGen.ImportRepeat | scripts/generate_imports.py:147-157 | each of the seven days takes its key's value when present; absent keys default to Monday to Friday on and the weekend off |
| ImportGen.ImportRepeatAgrees | scripts/generate_imports.py:149-157 | the script fills absent keys exactly as the daily resource fills unset days |
| ImportGen.TagBlockOf | scripts/generate_imports.py:104-111 | a tag's name is written unescaped: it reads back as itself with no quote, backslash or line break, and not at all with a line break, or with a quote but no backslash |
| ImportGen.UnescapeBareQuote | scripts/generate_imports.py:108 | a quote in a value with no backslash anywhere makes it unreadable |
| ImportGen.IntendedTagBlock | scripts/generate_imports.py:104-111 | with the name escaped, every tag name reads back as itself, and the block is the script's wherever the name needs no escape |
| ImportGen.HabitBlockOf | scripts/generate_imports.py:115-131 | the habit block's name is sanitised; its text reads back as the API's when on one line without a backslash, and not at all with a line break; its notes read back exactly when on one line; up defaults to true and down to false |
| ImportGen.IntendedHabitBlock | scripts/generate_imports.py:115-131 | with the corrected escaping every title and note reads back as itself, every other field is the script's, and the block is the script's wherever the script's escaping suffices |
| ImportGen.ImportHabitAgrees | scripts/generate_imports.py:125-126 | the generated up and down, applied through the habit resource, send what the API reported |
| ImportGen.DailyBlockOf | scripts/generate_imports.py:135-171 | the daily block's text and notes read back under the same conditions as a habit's, with frequency "weekly" and every_x 1 by default, the truncated start date and the repeat defaults |
| ImportGen.IntendedDailyBlock | scripts/generate_imports.py:135-171 | with the corrected escaping every title and note reads back as itself, and the block is otherwise the script's |
| ImportGen.TagsLine | scripts/generate_imports.py:118 | the tags line is omitted exactly when no reference survives; otherwise it is the prefix and a bracketed list that is the references joined by ", ", and that list splits back into exactly the references when none holds a comma |
| ImportGen.SplitJoin | scripts/generate_imports.py:118 | splitting a ", "-joined list of comma-free parts gives back the parts, so the join loses no reference |
| ImportGen.ImportedTagsLineLists | scripts/generate_imports.py:117-118 | the references built from the account's tags hold no comma, so a task's tags line lists exactly its references |

## Left out

- HTTP and JSON are not modelled:
  - request construction: URL, headers, the 30-second timeout;
  - marshalling of request bodies, with its "marshaling request body" and "creating request" errors;
  - decoding of responses.
  
  A response is an abstract outcome. The error envelope is an already-decoded optional message. What a success body decodes to is an input.
- The request line and body of writes are not represented. So CreateTag and UpdateTag are one member, `SaveTag`, and likewise `SaveTask` and `SaveWebhook`.
- The JSON encoding of a written task is modelled for its tags member only (`Types.TagsOnWire`). The field is tagged `omitempty`, so a nil and an empty Tags slice encode identically: both leave the member out. `Type` has no `omitempty`, so an update does send `"type":""`.
- Mutexes and concurrent callers are not modelled: the caches and the budget are sequential. The re-check inside populate appears as "populate is a no-op when already populated".
- The clock, `time.After` and `context` are inputs: a clock reading per attempt, and one cancellation flag per wait. Only the saturation of `time.Until` is modelled.
- Error messages are datatype constructors, not the formatted strings.
- Go's `int` is taken to be 64 bits wide, as on the platforms the provider ships for.
- Floating-point fields (priority, value) are only copied. The script's priority default is not modelled.
- Terraform framework glue is not modelled:
  - Schema, Metadata, Configure, ImportState;
  - plan and state get/set;
  - diagnostics from `ElementsAs`;
  - the resources' CRUD handlers around the conversions.
- The tag resource (pure passthrough), the provider (environment reads), `main.go` and the test utilities are not part of this model.
- The data source's JSON serialisation of its output is not modelled.
- The daily start date is a calendar date. The time of day and the time zone of the service's timestamp are not modelled.
- Dates.ParseOfFormat: covers years 0 to 9999 only, because wider years do not fit the four-digit field `time.Parse` reads.
- Import generator parts not modelled:
  - the `curl` fetch and the file writes;
  - the text of `import` blocks;
  - the layout of `resources.tf` beyond the attribute values;
  - the spelling of booleans;
  - API objects holding JSON `null`. A null `text`, tag `name`, `notes`, `tags` or `repeat` makes the script raise an error: `re.sub` or `.replace` on None, iteration over None, `.get` on None. A null `up` or `down` is written as `none`. A null `priority`, `frequency`, `everyX` or `startDate` is written as `None`.
- ImportGen.Unescape models HCL's backslash escapes (`\\`, `\"`, `\n`, `\r`, `\t`, `\uNNNN`, `\UNNNNNNNN`) and its refusal of a literal line break in a quoted string. Template sequences `${` and `%{` in notes or titles are outside this model, and neither of the script's escapings treats them.
- Decimal.ParseInt64: its contract states range and sign only. The value of every accepted string (an optional sign, then digits, leading zeros allowed) is given by `ParseSignedDigits`, and canonical spellings round-trip by `ParseFormatRoundTrip`.
- Retry.Do: its contract states only the attempt bound. Success, terminal errors, exhaustion, cancellation during a backoff and during a rate-gate wait, and the backoff schedule are each proved as separate lemmas about `Do`.
- The clock reading is taken as a time `time.Now` can return, so its own conversion to year-1 seconds never overflows; only the reset header's conversion is modelled with wrap-around.

## Findings

| source | as written | input that shows it | evidently intended | confidence | as-written member | corrected member |
|---|---|---|---|---|---|---|
| scripts/generate_imports.py:123 | task text (here and at line 161) is escaped for `"` only, although notes (line 119) first double backslashes | a habit titled `\` is written as `text = "\"`, where the backslash escapes the closing quote; a title containing a backslash then `n` reads back with a newline | escape backslashes before quotes, as for notes, so every title reads back as itself | not executed; high | ImportGen.TextEscapeAsWrittenBreaks | ImportGen.IntendedHabitBlock |
| scripts/generate_imports.py:108 | a tag's name is written between quotes with no escaping at all | a tag named `say "hi"` is written as `name = "say "hi""`, which ends the value at the second quote | escape the name as the notes are escaped, line breaks included | not executed; high | ImportGen.TagBlockOf | ImportGen.IntendedTagBlock |
| internal/resources/habit/resource.go:200-202 | for a null tags attribute Update sets an empty Tags slice, which `omitempty` on `Task.Tags` (internal/client/types.go:26) drops from the request | a habit holding tag `t1` whose configuration then drops the tags attribute: the update request has no tags member, so the service keeps `t1` | send an empty list, so the service clears the tags | not executed; medium (the service is taken to keep the fields a request omits) | HabitResource.UpdateKeepsHeldTags | HabitResource.IntendedUpdateTags |
| scripts/generate_imports.py:119 | notes (here and at line 139) have backslashes and quotes escaped but line breaks written literally, which HCL does not allow inside a quoted string | a habit whose notes are `a`, a newline, then `b` is written as a quoted value spanning two lines | write line feeds and carriage returns as `\n` and `\r`, so every note reads back as itself | not executed; high | ImportGen.NotesEscapeAsWrittenBreaks | ImportGen.Quote |

=== FILE: client.dfy ===
/** The client façade (internal/client/client.go): construction with defaults, the typed
    operations built on `do`, the tag and task caches and their invalidation on writes.
    The state a Go method mutates is threaded through as a `Client` value, and each operation
    returns the next state with its result. What one request yields is an input: the `Step`s
    the retry loop consumes and, for a successful body, what json.Unmarshal decodes from it. */
module Client {
  import opened Wrappers
  import opened Errors
  import opened Types
  import opened RateLimit
  import opened Retry
  import opened Collections
  import opened EntityCache

  const DefaultBaseURL: string := "https://habitica.com/api/v3"
  const DefaultRateLimitBuffer: int := 5
  const DefaultMaxRetries: int := 5
  const DefaultRetryDelay: int := 2 * NanosPerSecond
  const DefaultAppName: string := "TerraformHabitica"

  /** Durations are in nanoseconds. */
  datatype Config = Config(
    userID: string, apiKey: string, clientAuthorID: string, clientAppName: string,
    rateLimitBuffer: int, maxRetries: int, baseRetryDelay: int)

  datatype Client = Client(
    baseURL: string, userID: string, apiKey: string, clientID: string,
    policy: Policy, budget: Budget, tags: Cache<Tag>, tasks: Cache<Task>)

  /** A configured value when positive, the default otherwise. */
  function OrDefault(configured: int, fallback: int): int {
    if configured <= 0 then fallback else configured
  }

  function New(cfg: Config): (c: Client)
    ensures c.baseURL == DefaultBaseURL && c.userID == cfg.userID && c.apiKey == cfg.apiKey
    ensures c.clientID == cfg.clientAuthorID + "-" + (if cfg.clientAppName == "" then DefaultAppName else cfg.clientAppName)
    ensures c.policy.buffer > 0 && c.policy.maxRetries > 0 && c.policy.baseDelay > 0
    ensures cfg.rateLimitBuffer > 0 ==> c.policy.buffer == cfg.rateLimitBuffer
    ensures cfg.rateLimitBuffer <= 0 ==> c.policy.buffer == DefaultRateLimitBuffer
    ensures cfg.maxRetries > 0 ==> c.policy.maxRetries == cfg.maxRetries
    ensures cfg.maxRetries <= 0 ==> c.policy.maxRetries == DefaultMaxRetries
    ensures cfg.baseRetryDelay > 0 ==> c.policy.baseDelay == cfg.baseRetryDelay
    ensures cfg.baseRetryDelay <= 0 ==> c.policy.baseDelay == DefaultRetryDelay
    ensures c.budget == InitialBudget && c.tags.None? && c.tasks.None?
  {
    var appName := if cfg.clientAppName == "" then DefaultAppName else cfg.clientAppName;
    Client(
      DefaultBaseURL, cfg.userID, cfg.apiKey, cfg.clientAuthorID + "-" + appName,
      Policy(OrDefault(cfg.rateLimitBuffer, DefaultRateLimitBuffer),
             OrDefault(cfg.maxRetries, DefaultMaxRetries),
             OrDefault(cfg.baseRetryDelay, DefaultRetryDelay)),
      InitialBudget, None, None)
  }

  /** Feeding a client's effective settings back into New changes nothing: the defaults are
      only ever applied once. */
  lemma NewSettingsStable(cfg: Config)
    ensures var c := New(cfg);
      New(cfg.(rateLimitBuffer := c.policy.buffer, maxRetries := c.policy.maxRetries,
               baseRetryDelay := c.policy.baseDelay)) == c
  {
  }

  /** A fresh client never waits at the gate before its first request (at any time after
      the zero time). */
  lemma NewClientOpen(cfg: Config, now: int)
    requires now >= ZeroTimeUnix * NanosPerSecond
    ensures GateWait(New(cfg).budget, New(cfg).policy.buffer, now).None?
  {
    InitialBudgetOpen(New(cfg).policy.buffer, now);
  }

  /** The next client state, the operation's result and how many times it called `do`. */
  datatype Reply<T> = Reply(client: Client, result: Result<T, Error>, requests: nat)

  /** Enough scripted attempts for one call of `do`. */
  predicate Covers(c: Client, steps: seq<Step>) {
    |steps| > c.policy.maxRetries
  }

  /** One call of `do` followed by unmarshalling the envelope's data: `decoded` is what the
      success body decodes to, None when it does not decode. */
  function Fetch<T>(c: Client, steps: seq<Step>, decoded: Option<T>): (r: Reply<T>)
    requires Covers(c, steps)
    ensures var run := Do(c.policy, c.budget, steps);
      && r.requests == 1
      && r.client == c.(budget := run.budget)
      && (run.result.Failure? ==> r.result == Failure(run.result.error))
      && (run.result.Success? && decoded.None? ==> r.result == Failure(Malformed))
      && (r.result.Success? <==> run.result.Success? && decoded.Some?)
      && (r.result.Success? ==> r.result.value == decoded.value)
  {
    var run := Do(c.policy, c.budget, steps);
    var next := c.(budget := run.budget);
    match run.result
    case Failure(e) => Reply(next, Failure(e), 1)
    case Success(_) =>
      match decoded
      case None => Reply(next, Failure(Malformed), 1)
      case Some(v) => Reply(next, Success(v), 1)
  }

  /** GetAllTags: the bulk list, which never touches either cache. */
  function GetAllTags(c: Client, steps: seq<Step>, decoded: Option<seq<Tag>>): (r: Reply<seq<Tag>>)
    requires Covers(c, steps)
    ensures r.requests == 1 && r.client.tags == c.tags && r.client.tasks == c.tasks && r.client.policy == c.policy
    ensures r.result.Success? ==> decoded == Some(r.result.value)
  {
    Fetch(c, steps, decoded)
  }

  /** GetAllTasks: the bulk list, which never touches either cache. */
  function GetAllTasks(c: Client, steps: seq<Step>, decoded: Option<seq<Task>>): (r: Reply<seq<Task>>)
    requires Covers(c, steps)
    ensures r.requests == 1 && r.client.tags == c.tags && r.client.tasks == c.tasks && r.client.policy == c.policy
    ensures r.result.Success? ==> decoded == Some(r.result.value)
  {
    Fetch(c, steps, decoded)
  }

  /** GetWebhooks: the list of webhooks; there is no webhook cache. */
  function GetWebhooks(c: Client, steps: seq<Step>, decoded: Option<seq<Webhook>>): (r: Reply<seq<Webhook>>)
    requires Covers(c, steps)
    ensures r.requests == 1 && r.client.tags == c.tags && r.client.tasks == c.tasks
    ensures r.result.Success? ==> decoded == Some(r.result.value)
  {
    Fetch(c, steps, decoded)
  }

  /** GetTag: answered from a populated cache without a request; otherwise the bulk list is
      requested once and, if it succeeds, becomes the cache. */
  function GetTag(c: Client, id: string, steps: seq<Step>, decoded: Option<seq<Tag>>): (r: Reply<Tag>)
    requires Covers(c, steps)
    ensures r.requests == (if c.tags.None? then 1 else 0)
    ensures c.tags.Some? ==> r.client == c
    ensures c.tags.Some? && id in c.tags.value ==> r.result == Success(c.tags.value[id])
    ensures c.tags.Some? && id !in c.tags.value ==> r.result == Failure(NotFound("tag", id))
    ensures c.tags.None? ==> r.client.budget == Do(c.policy, c.budget, steps).budget
    ensures c.tags.None? ==>
              r.client.tags == (if GetAllTags(c, steps, decoded).result.Success? then Some(Index(decoded.value, TagKey)) else None)
    ensures c.tags.None? && r.client.tags.None? ==> r.result == Failure(GetAllTags(c, steps, decoded).result.error)
    ensures c.tags.None? && GetAllTags(c, steps, decoded).result.Success? ==>
              (r.result.Success? <==> LastIndexOf(decoded.value, TagKey, id).Some?)
    ensures c.tags.None? && GetAllTags(c, steps, decoded).result.Success? && r.result.Success? ==>
              r.result.value == decoded.value[LastIndexOf(decoded.value, TagKey, id).value]
    ensures c.tags.None? && GetAllTags(c, steps, decoded).result.Success? && r.result.Failure? ==>
              r.result.error == NotFound("tag", id)
    ensures r.client.tasks == c.tasks && r.client.policy == c.policy
    ensures Coherent(c.tags, TagKey) ==> Coherent(r.client.tags, TagKey)
    ensures Coherent(c.tags, TagKey) && r.result.Success? ==> r.result.value.id == id
  {
    var bulk := GetAllTags(c, steps, decoded);
    var look := EntityCache.Get(c.tags, "tag", id, bulk.result, TagKey);
    var next := if look.fetched then bulk.client else c;
    Reply(next.(tags := look.cache), look.result, if look.fetched then 1 else 0)
  }

  /** GetTask: the same lookup discipline over the task cache. */
  function GetTask(c: Client, id: string, steps: seq<Step>, decoded: Option<seq<Task>>): (r: Reply<Task>)
    requires Covers(c, steps)
    ensures r.requests == (if c.tasks.None? then 1 else 0)
    ensures c.tasks.Some? ==> r.client == c
    ensures c.tasks.Some? && id in c.tasks.value ==> r.result == Success(c.tasks.value[id])
    ensures c.tasks.Some? && id !in c.tasks.value ==> r.result == Failure(NotFound("task", id))
    ensures c.tasks.None? ==> r.client.budget == Do(c.policy, c.budget, steps).budget
    ensures c.tasks.None? ==>
              r.client.tasks == (if GetAllTasks(c, steps, decoded).result.Success? then Some(Index(decoded.value, TaskKey)) else None)
    ensures c.tasks.None? && r.client.tasks.None? ==> r.result == Failure(GetAllTasks(c, steps, decoded).result.error)
    ensures c.tasks.None? && GetAllTasks(c, steps, decoded).result.Success? ==>
              (r.result.Success? <==> LastIndexOf(decoded.value, TaskKey, id).Some?)
    ensures c.tasks.None? && GetAllTasks(c, steps, decoded).result.Success? && r.result.Success? ==>
              r.result.value == decoded.value[LastIndexOf(decoded.value, TaskKey, id).value]
    ensures c.tasks.None? && GetAllTasks(c, steps, decoded).result.Success? && r.result.Failure? ==>
              r.result.error == NotFound("task", id)
    ensures r.client.tags == c.tags && r.client.policy == c.policy
    ensures Coherent(c.tasks, TaskKey) ==> Coherent(r.client.tasks, TaskKey)
    ensures Coherent(c.tasks, TaskKey) && r.result.Success? ==> r.result.value.id == id
  {
    var bulk := GetAllTasks(c, steps, decoded);
    var look := EntityCache.Get(c.tasks, "task", id, bulk.result, TaskKey);
    var next := if look.fetched then bulk.client else c;
    Reply(next.(tasks := look.cache), look.result, if look.fetched then 1 else 0)
  }

  /** CreateTag and UpdateTag: they differ only in the request line and body, which the model
      does not represent. The tag cache is dropped exactly when the write and its decoding
      both succeed; the task cache is untouched. */
  function SaveTag(c: Client, steps: seq<Step>, decoded: Option<Tag>): (r: Reply<Tag>)
    requires Covers(c, steps)
    ensures r.requests == 1 && r.result == Fetch(c, steps, decoded).result
    ensures r.client.tags == (if r.result.Success? then None else c.tags)
    ensures r.client.tasks == c.tasks && r.client.policy == c.policy
  {
    var w := Fetch(c, steps, decoded);
    if w.result.Success? then w.(client := w.client.(tags := None)) else w
  }

  /** DeleteTag: the tag cache is dropped exactly when the request succeeds. */
  function DeleteTag(c: Client, steps: seq<Step>): (r: Reply<()>)
    requires Covers(c, steps)
    ensures r.requests == 1
    ensures r.result.Success? <==> Do(c.policy, c.budget, steps).result.Success?
    ensures r.result.Failure? ==> r.result.error == Do(c.policy, c.budget, steps).result.error
    ensures r.client.tags == (if r.result.Success? then None else c.tags)
    ensures r.client.tasks == c.tasks && r.client.policy == c.policy
  {
    var w := Fetch(c, steps, Some(()));
    if w.result.Success? then w.(client := w.client.(tags := None)) else w
  }

  /** CreateTask and UpdateTask: the task cache is dropped exactly when the write and its
      decoding both succeed; the tag cache is untouched. */
  function SaveTask(c: Client, steps: seq<Step>, decoded: Option<Task>): (r: Reply<Task>)
    requires Covers(c, steps)
    ensures r.requests == 1 && r.result == Fetch(c, steps, decoded).result
    ensures r.client.tasks == (if r.result.Success? then None else c.tasks)
    ensures r.client.tags == c.tags && r.client.policy == c.policy
  {
    var w := Fetch(c, steps, decoded);
    if w.result.Success? then w.(client := w.client.(tasks := None)) else w
  }

  /** DeleteTask: the task cache is dropped exactly when the request succeeds. */
  function DeleteTask(c: Client, steps: seq<Step>): (r: Reply<()>)
    requires Covers(c, steps)
    ensures r.requests == 1
    ensures r.result.Success? <==> Do(c.policy, c.budget, steps).result.Success?
    ensures r.result.Failure? ==> r.result.error == Do(c.policy, c.budget, steps).result.error
    ensures r.client.tasks == (if r.result.Success? then None else c.tasks)
    ensures r.client.tags == c.tags && r.client.policy == c.policy
  {
    var w := Fetch(c, steps, Some(()));
    if w.result.Success? then w.(client := w.client.(tasks := None)) else w
  }

  /** CreateWebhook and UpdateWebhook: no cache is involved. */
  function SaveWebhook(c: Client, steps: seq<Step>, decoded: Option<Webhook>): (r: Reply<Webhook>)
    requires Covers(c, steps)
    ensures r.requests == 1 && r.client.tags == c.tags && r.client.tasks == c.tasks
    ensures r.result.Success? ==> decoded == Some(r.result.value)
  {
    Fetch(c, steps, decoded)
  }

  /** DeleteWebhook: no cache is involved. */
  function DeleteWebhook(c: Client, steps: seq<Step>): (r: Reply<()>)
    requires Covers(c, steps)
    ensures r.requests == 1 && r.client.tags == c.tags && r.client.tasks == c.tasks
    ensures r.result.Success? <==> Do(c.policy, c.budget, steps).result.Success?
  {
    Fetch(c, steps, Some(()))
  }

  /** GetWebhook: always lists every webhook (one request) and returns the first with the ID. */
  function GetWebhook(c: Client, id: string, steps: seq<Step>, decoded: Option<seq<Webhook>>): (r: Reply<Webhook>)
    requires Covers(c, steps)
    ensures r.requests == 1 && r.client == GetWebhooks(c, steps, decoded).client
    ensures GetWebhooks(c, steps, decoded).result.Failure? ==> r.result == Failure(GetWebhooks(c, steps, decoded).result.error)
    ensures r.result.Success? ==> r.result.value.id == id && r.result.value in decoded.value
    ensures r.result.Success? ==> forall j :: 0 <= j < |decoded.value| && decoded.value[j].id == id ==> decoded.value[j] == r.result.value || exists i :: 0 <= i < j && decoded.value[i] == r.result.value
    ensures GetWebhooks(c, steps, decoded).result.Success? ==>
              (r.result.Failure? <==> forall j :: 0 <= j < |decoded.value| ==> decoded.value[j].id != id)
    ensures r.result.Failure? && GetWebhooks(c, steps, decoded).result.Success? ==> r.result.error == NotFound("webhook", id)
  {
    var all := GetWebhooks(c, steps, decoded);
    match all.result
    case Failure(e) => Reply(all.client, Failure(e), 1)
    case Success(hooks) =>
      match FirstIndexOf(hooks, WebhookKey, id)
      case None => Reply(all.client, Failure(NotFound("webhook", id)), 1)
      case Some(i) => Reply(all.client, Success(hooks[i]), 1)
  }

  /** After a successful tag write, the next tag lookup goes to the remote service again. */
  lemma TagWriteForcesRefetch(c: Client, w: seq<Step>, decoded: Option<Tag>, id: string, steps: seq<Step>, list: Option<seq<Tag>>)
    requires Covers(c, w) && Covers(c, steps)
    requires SaveTag(c, w, decoded).result.Success?
    ensures GetTag(SaveTag(c, w, decoded).client, id, steps, list).requests == 1
  {
  }

  /** After a successful task deletion, the next task lookup goes to the remote service again,
      while a populated tag cache keeps answering tag lookups for free. */
  lemma TaskDeleteForcesRefetch(c: Client, w: seq<Step>, id: string, steps: seq<Step>, list: Option<seq<Task>>, tagList: Option<seq<Tag>>)
    requires Covers(c, w) && Covers(c, steps)
    requires DeleteTask(c, w).result.Success?
    ensures GetTask(DeleteTask(c, w).client, id, steps, list).requests == 1
    ensures c.tags.Some? ==> GetTag(DeleteTask(c, w).client, id, steps, tagList).requests == 0
  {
  }

  /** One lookup in a sequence of cache lookups, with what its bulk list would yield. */
  datatype Query =
    | TagQuery(id: string, steps: seq<Step>, tagList: Option<seq<Tag>>)
    | TaskQuery(id: string, steps: seq<Step>, taskList: Option<seq<Task>>)

  /** The final client, the bulk requests each kind sent, and how many of those left that
      kind's cache unpopulated. */
  datatype Tally = Tally(client: Client, tagRequests: nat, tagFailures: nat, taskRequests: nat, taskFailures: nat)

  predicate Feasible(c: Client, qs: seq<Query>) {
    forall i :: 0 <= i < |qs| ==> Covers(c, qs[i].steps)
  }

  /** Runs the lookups in order, threading the client through. */
  function RunQueries(c: Client, qs: seq<Query>): (t: Tally)
    requires Feasible(c, qs)
    ensures t.client.policy == c.policy
    ensures t.tagRequests + t.taskRequests <= |qs|
    ensures t.tagFailures <= t.tagRequests && t.taskFailures <= t.taskRequests
    decreases |qs|
  {
    if |qs| == 0 then Tally(c, 0, 0, 0, 0)
    else
      match qs[0]
      case TagQuery(id, steps, list) =>
        var r := GetTag(c, id, steps, list);
        var rest := RunQueries(r.client, qs[1..]);
        rest.(tagRequests := rest.tagRequests + r.requests,
              tagFailures := rest.tagFailures + (if r.requests == 1 && r.client.tags.None? then 1 else 0))
      case TaskQuery(id, steps, list) =>
        var r := GetTask(c, id, steps, list);
        var rest := RunQueries(r.client, qs[1..]);
        rest.(taskRequests := rest.taskRequests + r.requests,
              taskFailures := rest.taskFailures + (if r.requests == 1 && r.client.tasks.None? then 1 else 0))
  }

  /** A populated cache is never refetched nor replaced by lookups of either kind. */
  lemma {:induction false} PopulatedCachesStay(c: Client, qs: seq<Query>)
    requires Feasible(c, qs)
    ensures c.tags.Some? ==> RunQueries(c, qs).tagRequests == 0 && RunQueries(c, qs).client.tags == c.tags
    ensures c.tasks.Some? ==> RunQueries(c, qs).taskRequests == 0 && RunQueries(c, qs).client.tasks == c.tasks
    decreases |qs|
  {
    if |qs| > 0 {
      match qs[0]
      case TagQuery(id, steps, list) =>
        PopulatedCachesStay(GetTag(c, id, steps, list).client, qs[1..]);
      case TaskQuery(id, steps, list) =>
        PopulatedCachesStay(GetTask(c, id, steps, list).client, qs[1..]);
    }
  }

  /** However lookups of the two kinds interleave, each kind sends its bulk list at most once
      more than the number of those lists that failed: one successful population serves every
      later lookup of that kind. */
  lemma {:induction false} BulkFetchesBounded(c: Client, qs: seq<Query>)
    requires Feasible(c, qs)
    ensures RunQueries(c, qs).tagRequests <= RunQueries(c, qs).tagFailures + 1
    ensures RunQueries(c, qs).taskRequests <= RunQueries(c, qs).taskFailures + 1
    decreases |qs|
  {
    if |qs| > 0 {
      match qs[0]
      case TagQuery(id, steps, list) =>
        var next := GetTag(c, id, steps, list).client;
        BulkFetchesBounded(next, qs[1..]);
        PopulatedCachesStay(next, qs[1..]);
      case TaskQuery(id, steps, list) =>
        var next := GetTask(c, id, steps, list).client;
        BulkFetchesBounded(next, qs[1..]);
        PopulatedCachesStay(next, qs[1..]);
    }
  }
}

=== FILE: collections.dfy ===
/** The list and map helpers the client, the aggregated view and the import generator share:
    indexing a list by ID (later entries win), resolving IDs through a map (unknown IDs are
    dropped) and a front-to-back scan for the first match. */
module Collections {
  import opened Wrappers

  /** The position of the last item whose key is k. */
  function LastIndexOf<E>(items: seq<E>, key: E -> string, k: string): (r: Option<nat>)
    ensures r.Some? ==> r.value < |items| && key(items[r.value]) == k
    ensures r.Some? ==> forall j :: r.value < j < |items| ==> key(items[j]) != k
    ensures r.None? ==> forall j :: 0 <= j < |items| ==> key(items[j]) != k
  {
    if |items| == 0 then None
    else if key(items[|items| - 1]) == k then Some(|items| - 1)
    else LastIndexOf(items[..|items| - 1], key, k)
  }

  /** The position of the first item whose key is k. */
  function FirstIndexOf<E>(items: seq<E>, key: E -> string, k: string): (r: Option<nat>)
    ensures r.Some? ==> r.value < |items| && key(items[r.value]) == k
    ensures r.Some? ==> forall j :: 0 <= j < r.value ==> key(items[j]) != k
    ensures r.None? ==> forall j :: 0 <= j < |items| ==> key(items[j]) != k
  {
    if |items| == 0 then None
    else if key(items[0]) == k then Some(0)
    else
      match FirstIndexOf(items[1..], key, k)
      case None => None
      case Some(i) => Some(i + 1)
  }

  /** A map from key to item built by inserting the items in order, as the source's loops do:
      every key of the list is present and maps to the LAST item carrying it. */
  function Index<E>(items: seq<E>, key: E -> string): (m: map<string, E>)
    ensures forall k :: k in m <==> LastIndexOf(items, key, k).Some?
    ensures forall k :: k in m ==> m[k] == items[LastIndexOf(items, key, k).value]
  {
    if |items| == 0 then map[]
    else
      var last := items[|items| - 1];
      Index(items[..|items| - 1], key)[key(last) := last]
  }

  /** The values of the IDs that the map knows, in the IDs' order; unknown IDs are dropped. */
  function Resolve<V>(ids: seq<string>, m: map<string, V>): (r: seq<V>)
    ensures |r| <= |ids|
    ensures (forall i :: 0 <= i < |ids| ==> ids[i] in m) ==> |r| == |ids| && forall i :: 0 <= i < |ids| ==> r[i] == m[ids[i]]
    ensures (forall i :: 0 <= i < |ids| ==> ids[i] !in m) ==> r == []
    ensures forall j :: 0 <= j < |r| ==> exists k :: k in m && r[j] == m[k]
  {
    if |ids| == 0 then []
    else
      var id := ids[|ids| - 1];
      var front := Resolve(ids[..|ids| - 1], m);
      if id in m then front + [m[id]] else front
  }

  /** Resolution works piecewise: together with the one-ID case this determines Resolve, so
      the output is the known IDs' values in input order and nothing else. */
  lemma {:induction false} ResolveAppend<V>(a: seq<string>, b: seq<string>, m: map<string, V>)
    ensures Resolve(a + b, m) == Resolve(a, m) + Resolve(b, m)
    decreases |b|
  {
    if |b| > 0 {
      var b' := b[..|b| - 1];
      ResolveAppend(a, b', m);
      assert (a + b)[..|a + b| - 1] == a + b';
      assert (a + b)[|a + b| - 1] == b[|b| - 1];
    } else {
      assert a + b == a;
    }
  }

  lemma ResolveOne<V>(id: string, m: map<string, V>)
    ensures Resolve([id], m) == if id in m then [m[id]] else []
  {
    assert [id][..0] == [];
  }
}

=== FILE: daily.dfy ===
/** The daily resource's conversions (internal/resources/daily/resource.go): the Terraform
    model to the task sent to the service, and the task the service returns back into the
    model. */
module DailyResource {
  import opened Wrappers
  import opened Dates
  import opened Types
  import opened HostValues

  datatype RepeatModel = RepeatModel(
    monday: Value<bool>, tuesday: Value<bool>, wednesday: Value<bool>, thursday: Value<bool>,
    friday: Value<bool>, saturday: Value<bool>, sunday: Value<bool>)

  /** `repeat` is None when the block is absent. Priority is carried but never inspected. */
  datatype DailyModel = DailyModel(
    id: Value<string>, text: Value<string>, notes: Value<string>, priority: Value<real>,
    frequency: Value<string>, everyX: Value<int>, startDate: Value<string>,
    repeat: Option<RepeatModel>, daysOfMonth: ListValue<int>, weeksOfMonth: ListValue<int>,
    tags: ListValue<string>)

  /** Monday through Friday. */
  const Weekdays := RepeatConfig(true, true, true, true, true, false, false)

  /** The repeat days sent: Monday to Friday when the block is absent; inside a block each
      weekday is on unless explicitly false and each weekend day is off unless explicitly true. */
  function RepeatOf(m: Option<RepeatModel>): (r: RepeatConfig)
    ensures m.None? ==> r == Weekdays
    ensures m.Some? ==>
      && r.monday == (m.value.monday != Known(false))
      && r.tuesday == (m.value.tuesday != Known(false))
      && r.wednesday == (m.value.wednesday != Known(false))
      && r.thursday == (m.value.thursday != Known(false))
      && r.friday == (m.value.friday != Known(false))
      && r.saturday == (m.value.saturday == Known(true))
      && r.sunday == (m.value.sunday == Known(true))
  {
    match m
    case None => Weekdays
    case Some(rm) =>
      RepeatConfig(
        WithDefault(rm.monday, true), WithDefault(rm.tuesday, true), WithDefault(rm.wednesday, true),
        WithDefault(rm.thursday, true), WithDefault(rm.friday, true),
        WithDefault(rm.saturday, false), WithDefault(rm.sunday, false))
  }

  /** A block with no day set sends the same days as no block at all. */
  lemma EmptyBlockIsDefault()
    ensures RepeatOf(Some(RepeatModel(Null, Null, Null, Null, Null, Null, Null))) == RepeatOf(None)
  {
  }

  /** The start date sent: only a known string in YYYY-MM-DD form that names a real date;
      anything else is dropped without complaint. */
  function StartDateOf(v: Value<string>): (d: Option<CalendarDate>)
    ensures d.Some? <==> v.Known? && ParseDate(v.v).Some?
    ensures d.Some? ==> FormatDate(d.value) == v.v
  {
    match v
    case Known(s) =>
      var parsed := ParseDate(s);
      if parsed.Some? then FormatOfParse(s); parsed else None
    case _ => None
  }

  /** modelToTask. */
  function ModelToTask(m: DailyModel): (t: Task)
    ensures t.kind == "daily" && t.id == ""
    ensures t.text == WithDefault(m.text, "") && t.notes == WithDefault(m.notes, "")
    ensures t.frequency == WithDefault(m.frequency, "") && t.everyX == WithDefault(m.everyX, 0)
    ensures t.priority == WithDefault(m.priority, 0.0)
    ensures t.repeat == Some(RepeatOf(m.repeat))
    ensures t.startDate == StartDateOf(m.startDate)
    ensures t.daysOfMonth == Elements(m.daysOfMonth).GetOr([])
    ensures t.weeksOfMonth == Elements(m.weeksOfMonth).GetOr([])
    ensures t.tags == Elements(m.tags)
    ensures t.up.None? && t.down.None? && t.alias == "" && !t.completed
  {
    BlankTask.(
      kind := "daily",
      text := WithDefault(m.text, ""),
      notes := WithDefault(m.notes, ""),
      priority := WithDefault(m.priority, 0.0),
      frequency := WithDefault(m.frequency, ""),
      everyX := WithDefault(m.everyX, 0),
      startDate := StartDateOf(m.startDate),
      repeat := Some(RepeatOf(m.repeat)),
      daysOfMonth := Elements(m.daysOfMonth).GetOr([]),
      weeksOfMonth := Elements(m.weeksOfMonth).GetOr([]),
      tags := Elements(m.tags))
  }

  function RepeatModelOf(r: RepeatConfig): RepeatModel {
    RepeatModel(
      Known(r.monday), Known(r.tuesday), Known(r.wednesday), Known(r.thursday),
      Known(r.friday), Known(r.saturday), Known(r.sunday))
  }

  /** updateModelFromTask. */
  function UpdateModelFromTask(m: DailyModel, t: Task): (m': DailyModel)
    ensures m'.id == m.id
    ensures m'.text == Known(t.text) && m'.notes == Known(t.notes) && m'.priority == Known(t.priority)
    ensures m'.frequency == Known(t.frequency) && m'.everyX == Known(t.everyX)
    ensures t.startDate.None? ==> m'.startDate == m.startDate
    ensures t.startDate.Some? && 0 <= t.startDate.value.year <= 9999 ==>
              m'.startDate.Known? && ParseDate(m'.startDate.v) == t.startDate
    ensures t.repeat.None? ==> m'.repeat == m.repeat
    ensures t.repeat.Some? ==> m'.repeat.Some? && RepeatOf(m'.repeat) == t.repeat.value
    ensures m'.daysOfMonth.NullList? <==> |t.daysOfMonth| == 0
    ensures m'.weeksOfMonth.NullList? <==> |t.weeksOfMonth| == 0
    ensures m'.tags.NullList? <==> |TagIDs(t)| == 0
    ensures Elements(m'.daysOfMonth).GetOr([]) == t.daysOfMonth
    ensures Elements(m'.weeksOfMonth).GetOr([]) == t.weeksOfMonth
    ensures Elements(m'.tags).GetOr([]) == TagIDs(t)
  {
    var date := if t.startDate.Some? then Known(FormatDate(t.startDate.value)) else m.startDate;
    var m' := m.(text := Known(t.text), notes := Known(t.notes), priority := Known(t.priority),
       frequency := Known(t.frequency), everyX := Known(t.everyX),
       startDate := date,
       repeat := if t.repeat.Some? then Some(RepeatModelOf(t.repeat.value)) else m.repeat,
       daysOfMonth := ListOf(t.daysOfMonth),
       weeksOfMonth := ListOf(t.weeksOfMonth),
       tags := ListOf(TagIDs(t)));
    if t.startDate.Some? && 0 <= t.startDate.value.year <= 9999 then
      ParseOfFormat(t.startDate.value); m'
    else m'
  }

  /** A plan that reads back unchanged: every scalar and repeat day known, a valid start
      date, and list attributes null or non-empty. */
  predicate Settled(m: DailyModel) {
    && m.text.Known? && m.notes.Known? && m.priority.Known? && m.frequency.Known? && m.everyX.Known?
    && m.startDate.Known? && ParseDate(m.startDate.v).Some?
    && m.repeat.Some?
    && m.repeat.value.monday.Known? && m.repeat.value.tuesday.Known? && m.repeat.value.wednesday.Known?
    && m.repeat.value.thursday.Known? && m.repeat.value.friday.Known?
    && m.repeat.value.saturday.Known? && m.repeat.value.sunday.Known?
    && Canonical(m.daysOfMonth) && Canonical(m.weeksOfMonth) && Canonical(m.tags)
  }

  /** When the service echoes the task it was sent, refreshing a settled plan from it gives
      the plan back: no spurious difference on the next plan. */
  lemma SettledRoundTrip(m: DailyModel)
    requires Settled(m)
    ensures UpdateModelFromTask(m, ModelToTask(m)) == m
  {
    FormatOfParse(m.startDate.v);
    ListRoundTrip(m.daysOfMonth);
    ListRoundTrip(m.weeksOfMonth);
    ListRoundTrip(m.tags);
  }

  /** Converting the refreshed model again sends the task that was read, apart from the
      fields the daily does not manage, provided the task carried a four-digit start year,
      a repeat block and its tags as a list. */
  lemma TaskRoundTrip(m: DailyModel, t: Task)
    requires t.startDate.Some? && 0 <= t.startDate.value.year <= 9999 && t.repeat.Some?
    requires t.tags.Some? && |t.tags.value| > 0
    ensures var t' := ModelToTask(UpdateModelFromTask(m, t));
      && t'.text == t.text && t'.notes == t.notes && t'.frequency == t.frequency && t'.everyX == t.everyX
      && t'.startDate == t.startDate && t'.repeat == t.repeat
      && t'.daysOfMonth == t.daysOfMonth && t'.weeksOfMonth == t.weeksOfMonth && t'.tags == t.tags
  {
  }
}

=== FILE: dates.dfy ===
/** Calendar dates in the "2006-01-02" layout of Go's time package: `time.Parse` with
    that layout when reading a configured start date, `Time.Format` when writing one back. */
module Dates {
  import opened Wrappers
  import opened Decimal

  datatype Date = Date(year: int, month: int, day: int)

  predicate IsLeap(year: int) {
    year % 4 == 0 && (year % 100 != 0 || year % 400 == 0)
  }

  function DaysIn(month: int, year: int): int
    requires 1 <= month <= 12
  {
    if month == 2 then (if IsLeap(year) then 29 else 28)
    else if month == 4 || month == 6 || month == 9 || month == 11 then 30
    else 31
  }

  /** A day that exists in the proleptic Gregorian calendar, as every time.Time denotes. */
  predicate IsCalendarDate(d: Date) {
    1 <= d.month <= 12 && 1 <= d.day <= DaysIn(d.month, d.year)
  }

  type CalendarDate = d: Date | IsCalendarDate(d) witness Date(1970, 1, 1)

  function Pad2(n: nat): (s: string)
    requires n < 100
  {
    [DigitChar(n / 10), DigitChar(n % 10)]
  }

  function Pad4(n: nat): (s: string)
    requires n < 10000
  {
    [DigitChar(n / 1000), DigitChar(n / 100 % 10), DigitChar(n / 10 % 10), DigitChar(n % 10)]
  }

  /** The "2006" field: at least four digits, zero-padded, with a '-' for years before 0. */
  function FormatYear(y: int): string {
    var m: nat := if y < 0 then -y else y;
    var digits := if m < 10000 then Pad4(m) else FormatNat(m);
    if y < 0 then "-" + digits else digits
  }

  /** Time.Format("2006-01-02"). */
  function FormatDate(d: CalendarDate): string {
    FormatYear(d.year) + "-" + Pad2(d.month) + "-" + Pad2(d.day)
  }

  /** time.Parse("2006-01-02", s): exactly four year digits, '-', two month digits, '-',
      two day digits and nothing after them; the month must be 1-12 and the day must exist
      in that month of that year. Any other string is an error (None). */
  function ParseDate(s: string): (r: Option<CalendarDate>)
    ensures r.Some? ==> |s| == 10 && s[4] == '-' && s[7] == '-'
    ensures r.Some? ==> 0 <= r.value.year <= 9999
  {
    if |s| != 10 || s[4] != '-' || s[7] != '-' then None
    else if !AllDigits(s[..4]) || !AllDigits(s[5..7]) || !AllDigits(s[8..]) then None
    else
      var d := Date(DigitsValue(s[..4]), DigitsValue(s[5..7]), DigitsValue(s[8..]));
      DigitsValue4(s[..4]);
      if IsCalendarDate(d) then Some(d) else None
  }

  lemma DigitsValue2(s: string)
    requires |s| == 2 && AllDigits(s)
    ensures DigitsValue(s) == 10 * DigitValue(s[0]) + DigitValue(s[1])
  {
    assert s[..1][..0] == [];
    assert s[..1][0] == s[0];
    assert DigitsValue(s[..1]) == DigitValue(s[0]);
  }

  lemma DigitsValue4(s: string)
    requires |s| == 4 && AllDigits(s)
    ensures DigitsValue(s) == 1000 * DigitValue(s[0]) + 100 * DigitValue(s[1]) + 10 * DigitValue(s[2]) + DigitValue(s[3])
  {
    DigitsValue2(s[..2]);
    assert s[..3][..2] == s[..2];
  }

  lemma DivDigits(n: int, k: int, q: int, r: int)
    requires 0 < k && n == k * q + r && 0 <= r < k
    ensures n / k == q && n % k == r
  {
    var q0, r0 := n / k, n % k;
    assert k * (q - q0) == r0 - r;
    if q > q0 {
      MulAtLeast(k, q - q0);
    } else if q < q0 {
      MulAtLeast(k, q0 - q);
    }
  }

  lemma MulAtLeast(k: int, m: int)
    requires 0 < k && 1 <= m
    ensures k * m >= k
  {
    assert k * m == k * (m - 1) + k;
    if m > 1 {
      MulAtLeast(k, m - 1);
    }
  }

  lemma Pad2Digits(n: nat)
    requires n < 100
    ensures AllDigits(Pad2(n)) && DigitsValue(Pad2(n)) == n
  {
    DigitsValue2(Pad2(n));
  }

  lemma Pad4Digits(n: nat)
    requires n < 10000
    ensures AllDigits(Pad4(n)) && DigitsValue(Pad4(n)) == n
  {
    var d, q1 := n % 10, n / 10;
    var c, q2 := q1 % 10, q1 / 10;
    var b, a := q2 % 10, q2 / 10;
    assert n == 1000 * a + 100 * b + 10 * c + d;
    DivDigits(n, 1000, a, 100 * b + 10 * c + d);
    DivDigits(n, 100, 10 * a + b, 10 * c + d);
    DivDigits(n, 10, 100 * a + 10 * b + c, d);
    DivDigits(10 * a + b, 10, a, b);
    DivDigits(100 * a + 10 * b + c, 10, 10 * a + b, c);
    assert Pad4(n) == [DigitChar(a), DigitChar(b), DigitChar(c), DigitChar(d)];
    DigitsValue4(Pad4(n));
  }

  lemma Pad2OfDigits(s: string)
    requires |s| == 2 && AllDigits(s)
    ensures DigitsValue(s) < 100 && Pad2(DigitsValue(s)) == s
  {
    DigitsValue2(s);
    var a, b := DigitValue(s[0]), DigitValue(s[1]);
    assert DigitChar(a) == s[0] && DigitChar(b) == s[1];
  }

  lemma Pad4OfDigits(s: string)
    requires |s| == 4 && AllDigits(s)
    ensures DigitsValue(s) < 10000 && Pad4(DigitsValue(s)) == s
  {
    DigitsValue4(s);
    var a, b, c, d := DigitValue(s[0]), DigitValue(s[1]), DigitValue(s[2]), DigitValue(s[3]);
    var n := DigitsValue(s);
    DivDigits(n, 1000, a, 100 * b + 10 * c + d);
    DivDigits(n, 100, 10 * a + b, 10 * c + d);
    DivDigits(n, 10, 100 * a + 10 * b + c, d);
    DivDigits(10 * a + b, 10, a, b);
    DivDigits(100 * a + 10 * b + c, 10, 10 * a + b, c);
    assert DigitChar(a) == s[0] && DigitChar(b) == s[1] && DigitChar(c) == s[2] && DigitChar(d) == s[3];
  }

  /** Formatting a date that time.Parse accepted gives back the very string it read. */
  lemma FormatOfParse(s: string)
    requires ParseDate(s).Some?
    ensures FormatDate(ParseDate(s).value) == s
  {
    var d := ParseDate(s).value;
    Pad4OfDigits(s[..4]);
    Pad2OfDigits(s[5..7]);
    Pad2OfDigits(s[8..]);
    assert s == s[..4] + "-" + s[5..7] + "-" + s[8..];
  }

  /** Parsing a formatted date with a four-digit year gives back that date. */
  lemma ParseOfFormat(d: CalendarDate)
    requires 0 <= d.year <= 9999
    ensures ParseDate(FormatDate(d)) == Some(d)
  {
    var s := FormatDate(d);
    Pad4Digits(d.year);
    Pad2Digits(d.month);
    Pad2Digits(d.day);
    assert s[..4] == Pad4(d.year);
    assert s[5..7] == Pad2(d.month);
    assert s[8..] == Pad2(d.day);
  }
}

=== FILE: decimal.dfy ===
/** Decimal integers as Go's strconv reads them: `strconv.ParseInt(s, 10, 64)`, and
    `strconv.Atoi` on a 64-bit platform, which accepts exactly the same strings. */
module Decimal {
  import opened Wrappers

  const MinInt64: int := -0x8000_0000_0000_0000
  const MaxInt64: int := 0x7FFF_FFFF_FFFF_FFFF
  const TwoTo64: int := 0x1_0000_0000_0000_0000

  /** Two's-complement truncation to 64 bits, as Go's int64 arithmetic wraps. */
  function Wrap64(x: int): (w: int)
    ensures MinInt64 <= w <= MaxInt64
    ensures (w - x) % TwoTo64 == 0
    ensures MinInt64 <= x <= MaxInt64 ==> w == x
  {
    var m := x % TwoTo64;
    if m > MaxInt64 then m - TwoTo64 else m
  }

  predicate IsDigit(c: char) {
    '0' <= c <= '9'
  }

  predicate AllDigits(s: string) {
    forall i :: 0 <= i < |s| ==> IsDigit(s[i])
  }

  function DigitValue(c: char): nat
    requires IsDigit(c)
  {
    c as int - '0' as int
  }

  function DigitChar(d: nat): char
    requires d < 10
  {
    ('0' as int + d) as char
  }

  /** The number a non-empty or empty run of decimal digits spells (most significant first). */
  function DigitsValue(s: string): nat
    requires AllDigits(s)
  {
    if |s| == 0 then 0 else 10 * DigitsValue(s[..|s| - 1]) + DigitValue(s[|s| - 1])
  }

  /** An optional sign ('+' or '-'), then one or more digits, and a value that fits in
      64 bits; anything else is a syntax or range error (None). */
  function ParseInt64(s: string): (r: Option<int>)
    ensures r.Some? ==> MinInt64 <= r.value <= MaxInt64
    ensures r.Some? ==> |s| > 0 && (IsDigit(s[0]) || s[0] == '+' || s[0] == '-')
    ensures r.Some? && s[0] == '-' ==> r.value <= 0
    ensures r.Some? && s[0] != '-' ==> r.value >= 0
  {
    if |s| == 0 then None
    else
      var digits := if s[0] == '-' || s[0] == '+' then s[1..] else s;
      if |digits| == 0 || !AllDigits(digits) then None
      else
        var magnitude: int := DigitsValue(digits);
        var v := if s[0] == '-' then -magnitude else magnitude;
        if MinInt64 <= v <= MaxInt64 then Some(v) else None
  }

  /** The shortest decimal spelling of a natural number. */
  function FormatNat(n: nat): (s: string)
    decreases n
  {
    if n < 10 then [DigitChar(n)] else FormatNat(n / 10) + [DigitChar(n % 10)]
  }

  /** strconv.Itoa: a leading '-' for negative numbers, then the magnitude. */
  function FormatInt(n: int): string {
    if n < 0 then "-" + FormatNat(-n) else FormatNat(n)
  }

  lemma {:induction false} FormatNatDigits(n: nat)
    ensures |FormatNat(n)| > 0
    ensures AllDigits(FormatNat(n))
    ensures DigitsValue(FormatNat(n)) == n
    decreases n
  {
    var s := FormatNat(n);
    if n >= 10 {
      FormatNatDigits(n / 10);
      var prefix := FormatNat(n / 10);
      assert s == prefix + [DigitChar(n % 10)];
      assert s[..|s| - 1] == prefix;
      assert forall i :: 0 <= i < |s| ==> IsDigit(s[i]) by {
        forall i | 0 <= i < |s|
          ensures IsDigit(s[i])
        {
          if i < |prefix| {
            assert s[i] == prefix[i];
          }
        }
      }
    }
  }

  /** The value of every accepted spelling: an optional sign, then digits, leading zeros
      allowed ("007", "+5" and "-0" included), read as their signed value when it fits in
      64 bits and rejected when it does not. */
  lemma ParseSignedDigits(sign: string, digits: string)
    requires sign == "" || sign == "+" || sign == "-"
    requires |digits| > 0 && AllDigits(digits)
    ensures var n: int := DigitsValue(digits); var v := if sign == "-" then -n else n;
      ParseInt64(sign + digits) == (if MinInt64 <= v <= MaxInt64 then Some(v) else None)
  {
    var s := sign + digits;
    if sign == "" {
      assert s == digits;
    } else {
      assert s[0] == sign[0] && s[1..] == digits;
    }
  }

  /** Reading back what FormatInt writes recovers the number, for every 64-bit value. */
  lemma {:induction false} ParseFormatRoundTrip(n: int)
    requires MinInt64 <= n <= MaxInt64
    ensures ParseInt64(FormatInt(n)) == Some(n)
  {
    var m: nat := if n < 0 then -n else n;
    FormatNatDigits(m);
    var digits := FormatNat(m);
    var s := FormatInt(n);
    if n < 0 {
      assert s == "-" + digits;
      assert s[0] == '-' && s[1..] == digits;
      assert DigitsValue(digits) == m && m == -n;
    } else {
      assert s == digits;
      assert IsDigit(s[0]) && s[0] != '-' && s[0] != '+';
      assert DigitsValue(digits) == n;
    }
  }
}

=== FILE: entitycache.dfy ===
/** The per-kind entity cache behind GetTag and GetTask: unpopulated (None) or a map from ID
    to entity built from one bulk list (Some, possibly empty). */
module EntityCache {
  import opened Wrappers
  import opened Errors
  import opened Collections

  type Cache<E> = Option<map<string, E>>

  /** Every populated entry is filed under the entity's own ID. */
  predicate Coherent<E>(cache: Cache<E>, key: E -> string) {
    cache.Some? ==> forall k :: k in cache.value ==> key(cache.value[k]) == k
  }

  /** The cache after a populate call, the failure it returned, and whether it sent the bulk list. */
  datatype Populated<E> = Populated(cache: Cache<E>, failure: Option<Error>, fetched: bool)

  /** populateTagCache / populateTaskCache: a populated cache is left alone without a request;
      otherwise the bulk list is requested (`fetch` is what that request yields) and, only on
      success, a fresh index of it replaces the cache. */
  function Populate<E>(cache: Cache<E>, fetch: Result<seq<E>, Error>, key: E -> string): (p: Populated<E>)
    ensures p.fetched <==> cache.None?
    ensures cache.Some? ==> p == Populated(cache, None, false)
    ensures p.failure.None? <==> p.cache.Some?
    ensures cache.None? && fetch.Failure? ==> p.failure == Some(fetch.error)
    ensures cache.None? && fetch.Success? ==> p.cache == Some(Index(fetch.value, key))
  {
    if cache.Some? then Populated(cache, None, false)
    else
      match fetch
      case Failure(e) => Populated(None, Some(e), true)
      case Success(items) => Populated(Some(Index(items, key)), None, true)
  }

  /** The cache after a lookup, the lookup's result, and whether it sent the bulk list. */
  datatype Lookup<E> = Lookup(cache: Cache<E>, result: Result<E, Error>, fetched: bool)

  /** GetTag / GetTask: a hit answers from the cache; a miss populates (a no-op when already
      populated) and looks again, reporting "not found" for an ID the list lacks. */
  function Get<E>(cache: Cache<E>, kind: string, id: string, fetch: Result<seq<E>, Error>, key: E -> string): (r: Lookup<E>)
    ensures r.fetched <==> cache.None?
    ensures cache.Some? ==> r.cache == cache
    ensures cache.Some? && id in cache.value ==> r.result == Success(cache.value[id])
    ensures cache.Some? && id !in cache.value ==> r.result == Failure(NotFound(kind, id))
    ensures cache.None? && fetch.Failure? ==> r.cache.None? && r.result == Failure(fetch.error)
    ensures cache.None? && fetch.Success? ==> r.cache == Some(Index(fetch.value, key))
    ensures cache.None? && fetch.Success? ==>
              (r.result.Success? <==> LastIndexOf(fetch.value, key, id).Some?)
    ensures cache.None? && fetch.Success? && r.result.Success? ==>
              r.result.value == fetch.value[LastIndexOf(fetch.value, key, id).value]
    ensures cache.None? && fetch.Success? && r.result.Failure? ==> r.result.error == NotFound(kind, id)
    ensures Coherent(cache, key) ==> Coherent(r.cache, key)
    ensures Coherent(cache, key) && r.result.Success? ==> key(r.result.value) == id
  {
    if cache.Some? && id in cache.value then Lookup(cache, Success(cache.value[id]), false)
    else
      var p := Populate(cache, fetch, key);
      if p.failure.Some? then Lookup(p.cache, Failure(p.failure.value), p.fetched)
      else if id in p.cache.value then Lookup(p.cache, Success(p.cache.value[id]), p.fetched)
      else Lookup(p.cache, Failure(NotFound(kind, id)), p.fetched)
  }
}

=== FILE: errors.dfy ===
/** The failures a client operation can return, one constructor per error the source
    formats (internal/client/client.go). */
module Errors {
  import opened Wrappers

  datatype Error =
    /** "executing request": the request could not be sent; retried. */
    | Transport(reason: string)
    /** "reading response body"; retried. */
    | ReadBody(reason: string)
    /** "rate limited (429)"; retried. */
    | RateLimited
    /** "API error (status): detail" for any other status of 400 or more; not retried. */
    | Api(status: int, detail: string)
    /** "max retries exceeded" wrapping the last failure (None only if no attempt was made). */
    | MaxRetriesExceeded(last: Option<Error>)
    /** The caller's context was cancelled during a wait. */
    | Cancelled
    /** "unmarshaling response": a success body did not decode. */
    | Malformed
    /** "<kind> not found: <id>", raised locally without a request. */
    | NotFound(kind: string, id: string)
}

=== FILE: habit.dfy ===
/** The habit resource's conversions (internal/resources/habit/resource.go): the task built
    by Create and by Update, and the refresh of the model from the returned task. */
module HabitResource {
  import opened Wrappers
  import opened Types
  import opened HostValues

  datatype HabitModel = HabitModel(
    id: Value<string>, text: Value<string>, notes: Value<string>, priority: Value<real>,
    up: Value<bool>, down: Value<bool>, tags: ListValue<string>)

  /** The task fields Create and Update share: up defaults to true, down to false. */
  function Scored(m: HabitModel): (t: Task)
    ensures t.up.Some? && t.up.value == (m.up != Known(false)) && t.down.Some? && t.down.value == (m.down == Known(true))
    ensures t.text == WithDefault(m.text, "") && t.notes == WithDefault(m.notes, "")
    ensures t.priority == WithDefault(m.priority, 0.0)
    ensures t.id == "" && t.kind == "" && t.tags.None? && t.repeat.None?
  {
    BlankTask.(
      text := WithDefault(m.text, ""),
      notes := WithDefault(m.notes, ""),
      priority := WithDefault(m.priority, 0.0),
      up := Some(WithDefault(m.up, true)),
      down := Some(WithDefault(m.down, false)))
  }

  /** The task Create sends: type "habit", and no tags at all when the attribute is null. */
  function CreateTask(m: HabitModel): (t: Task)
    ensures t.kind == "habit" && t.id == ""
    ensures t.up.Some? && t.up.value == (m.up != Known(false)) && t.down.Some? && t.down.value == (m.down == Known(true))
    ensures t.tags.None? <==> m.tags.NullList?
    ensures m.tags.KnownList? ==> t.tags == Some(m.tags.items)
  {
    Scored(m).(kind := "habit", tags := Elements(m.tags))
  }

  /** The Task struct Update builds: an empty Type (still encoded, as "type" has no
      `omitempty`), and an empty Tags slice when the attribute is null. That slice is not
      sent: see UpdateKeepsHeldTags. */
  function UpdateTask(m: HabitModel): (t: Task)
    ensures t.kind == "" && t.id == ""
    ensures t.up.Some? && t.up.value == (m.up != Known(false)) && t.down.Some? && t.down.value == (m.down == Known(true))
    ensures t.tags.Some?
    ensures m.tags.NullList? ==> t.tags == Some([])
    ensures m.tags.KnownList? ==> t.tags == Some(m.tags.items)
  {
    Scored(m).(tags := Some(Elements(m.tags).GetOr([])))
  }

  /** The structs Create and Update build differ only in Type and in the Tags slice for a
      null tag list (nil for Create, empty for Update). */
  lemma CreateUpdateDiffer(m: HabitModel)
    ensures UpdateTask(m) == CreateTask(m).(kind := "", tags := Some(TagIDs(CreateTask(m))))
    ensures m.tags.KnownList? ==> UpdateTask(m) == CreateTask(m).(kind := "")
  {
  }

  /** updateModelFromTask. */
  function UpdateModelFromTask(m: HabitModel, t: Task): (m': HabitModel)
    ensures m'.id == m.id
    ensures m'.text == Known(t.text) && m'.notes == Known(t.notes) && m'.priority == Known(t.priority)
    ensures t.up.None? ==> m'.up == m.up
    ensures t.up.Some? ==> m'.up == Known(t.up.value)
    ensures t.down.None? ==> m'.down == m.down
    ensures t.down.Some? ==> m'.down == Known(t.down.value)
    ensures m'.tags.NullList? <==> |TagIDs(t)| == 0
    ensures Elements(m'.tags).GetOr([]) == TagIDs(t)
  {
    m.(text := Known(t.text), notes := Known(t.notes), priority := Known(t.priority),
       up := if t.up.Some? then Known(t.up.value) else m.up,
       down := if t.down.Some? then Known(t.down.value) else m.down,
       tags := ListOf(TagIDs(t)))
  }

  /** A plan that reads back unchanged: every scalar known and the tag list null or non-empty. */
  predicate Settled(m: HabitModel) {
    m.text.Known? && m.notes.Known? && m.priority.Known? && m.up.Known? && m.down.Known? && Canonical(m.tags)
  }

  /** When the service echoes what Create or Update sent, refreshing a settled plan from it
      gives the plan back. */
  lemma SettledRoundTrip(m: HabitModel)
    requires Settled(m)
    ensures UpdateModelFromTask(m, CreateTask(m)) == m
    ensures UpdateModelFromTask(m, UpdateTask(m)) == m
  {
    ListRoundTrip(m.tags);
  }

  /** A plan whose up or down is left unset reads back with the default that was sent. */
  lemma DefaultsReadBack(m: HabitModel)
    ensures var m' := UpdateModelFromTask(m, CreateTask(m));
      m'.up.Known? && m'.up.v == (m.up != Known(false)) && m'.down.Known? && m'.down.v == (m.down == Known(true))
  {
  }

  /** The tags the service holds after an update: a request without a tags member leaves
      them as they were. */
  function TagsAfterUpdate(held: seq<string>, sent: Option<seq<string>>): seq<string> {
    sent.GetOr(held)
  }

  /** The empty slice Update sets for a null tag list never reaches the service: `omitempty`
      drops it, the request carries no tags, just as Create's does, and the service keeps the
      tags it holds. So removing a habit's tags from the configuration does not clear them. */
  lemma UpdateKeepsHeldTags(m: HabitModel, held: seq<string>)
    ensures m.tags.NullList? || m.tags == KnownList([]) ==>
      TagsOnWire(UpdateTask(m)).None? && TagsOnWire(UpdateTask(m)) == TagsOnWire(CreateTask(m))
    ensures m.tags.NullList? ==> TagsAfterUpdate(held, TagsOnWire(UpdateTask(m))) == held
  {
  }

  /** The tags Update is meant to send: the configured list, empty for a null attribute, and
      always written, so that the service ends up holding exactly the configured tags. Where
      the list is non-empty it is what the program sends. */
  function IntendedUpdateTags(m: HabitModel): (sent: Option<seq<string>>)
    ensures forall held :: TagsAfterUpdate(held, sent) == Elements(m.tags).GetOr([])
    ensures Elements(m.tags).GetOr([]) != [] ==> sent == TagsOnWire(UpdateTask(m))
  {
    Some(TagIDs(UpdateTask(m)))
  }
}

=== FILE: hostvalues.dfy ===
/** Attribute values as the Terraform plugin framework hands them to a resource: null,
    unknown (not yet computed) or known. */
module HostValues {
  import opened Wrappers

  datatype Value<T> = Null | Unknown | Known(v: T)

  /** A list attribute that is Optional and not Computed: null or a known list (it is never
      unknown when a resource converts it). */
  datatype ListValue<T> = NullList | KnownList(items: seq<T>)

  /** getBoolWithDefault, and the framework's ValueString/ValueBool/ValueInt64/ValueFloat64,
      which are the same rule with the type's zero value as the default. */
  function WithDefault<T>(x: Value<T>, default: T): (r: T)
    ensures x.Known? ==> r == x.v
    ensures !x.Known? ==> r == default
  {
    match x
    case Known(v) => v
    case _ => default
  }

  /** The default decides the outcome exactly when the value is not known. */
  lemma DefaultMattersUnlessKnown(x: Value<bool>)
    ensures (WithDefault(x, true) == WithDefault(x, false)) <==> x.Known?
  {
  }

  /** The elements a conversion copies out of a list attribute: None for a null list
      (the Go slice stays nil). */
  function Elements<T>(l: ListValue<T>): (r: Option<seq<T>>)
    ensures r.None? <==> l.NullList?
    ensures l.KnownList? ==> r.value == l.items
  {
    match l
    case NullList => None
    case KnownList(items) => Some(items)
  }

  /** ListValueFrom / ListNull on read-back: an empty slice is stored as a null list. */
  function ListOf<T>(items: seq<T>): (l: ListValue<T>)
    ensures l.NullList? <==> |items| == 0
    ensures l.KnownList? ==> l.items == items
  {
    if |items| == 0 then NullList else KnownList(items)
  }

  /** A list attribute that survives a read-back unchanged: null or non-empty. */
  predicate Canonical<T>(l: ListValue<T>) {
    l.KnownList? ==> |l.items| > 0
  }

  /** Read-back after copying out returns the original list exactly when it is canonical; the
      one non-canonical value, a known empty list, comes back null. */
  lemma ListRoundTrip<T>(l: ListValue<T>)
    ensures (ListOf(Elements(l).GetOr([])) == l) <==> Canonical(l)
    ensures !Canonical(l) ==> ListOf(Elements(l).GetOr([])) == NullList
  {
  }
}

=== FILE: importgen.dfy ===
/** The string logic of the import generator (scripts/generate_imports.py): resource names
    derived from titles, tag references, the escaping of quoted attribute values, and the
    defaults written for absent keys. A quoted value is modelled by the characters between
    its quotes; `Unescape` decodes them as HCL reads a quoted string with backslash escapes. */
module ImportGen {
  import opened Wrappers
  import opened Decimal
  import opened Dates
  import opened Types
  import opened Collections
  import opened HostValues
  import DailyResource
  import HabitResource

  const NameLimit: nat := 50

  function Min(a: nat, b: nat): nat {
    if a <= b then a else b
  }

  predicate IsAsciiAlnum(c: char) {
    'a' <= c <= 'z' || 'A' <= c <= 'Z' || '0' <= c <= '9'
  }

  /** A character a generated resource name may contain. */
  predicate IsNameChar(c: char) {
    'a' <= c <= 'z' || '0' <= c <= '9' || c == '_'
  }

  function LowerChar(c: char): char {
    if 'A' <= c <= 'Z' then (c as int + 32) as char else c
  }

  /** What one character of a title becomes in its resource name. */
  function NameChar(c: char): char {
    if IsAsciiAlnum(c) then LowerChar(c) else '_'
  }

  /** re.sub over [^a-zA-Z0-9]: every other character becomes an underscore. */
  function Substitute(s: string): (r: string)
    ensures |r| == |s|
    ensures forall i :: 0 <= i < |s| ==> r[i] == (if IsAsciiAlnum(s[i]) then s[i] else '_')
  {
    if |s| == 0 then ""
    else [if IsAsciiAlnum(s[0]) then s[0] else '_'] + Substitute(s[1..])
  }

  /** str.lower on text that holds only ASCII letters, digits and underscores. */
  function Lower(s: string): (r: string)
    ensures |r| == |s|
    ensures forall i :: 0 <= i < |s| ==> r[i] == LowerChar(s[i])
  {
    if |s| == 0 then "" else [LowerChar(s[0])] + Lower(s[1..])
  }

  /** to_resource_name: substitute, lower-case, keep the first 50 characters, and prefix an
      underscore when the result starts with a digit. */
  function ToResourceName(text: string): (name: string)
    ensures forall i :: 0 <= i < |name| ==> IsNameChar(name[i])
    ensures |name| > 0 ==> !IsDigit(name[0])
    ensures |name| == Min(|text|, NameLimit) + (if |text| > 0 && IsDigit(text[0]) then 1 else 0)
    ensures |text| == 0 ==> name == ""
    ensures |text| > 0 && IsDigit(text[0]) ==> name[0] == '_'
    ensures var n := Min(|text|, NameLimit);
      forall i :: 0 <= i < n ==> name[|name| - n + i] == NameChar(text[i])
  {
    var cut := Lower(Substitute(text))[..Min(|text|, NameLimit)];
    if |cut| > 0 && IsDigit(cut[0]) then "_" + cut else cut
  }

  /** A name the function produced, if not longer than the limit, is left as it is: names are
      only ever sanitised once. (A digit-led title of 50 or more characters gives a 51-character
      name, which a second pass would shorten.) */
  lemma ResourceNameStable(text: string)
    requires |ToResourceName(text)| <= NameLimit
    ensures ToResourceName(ToResourceName(text)) == ToResourceName(text)
  {
    var name := ToResourceName(text);
    assert Lower(Substitute(name)) == name;
    assert Lower(Substitute(name))[..Min(|name|, NameLimit)] == name;
  }

  /** tag_lookup: tag ID to the tag's resource name; a later tag with the same ID wins. */
  function TagLookup(tags: seq<Tag>): (m: map<string, string>)
    ensures forall k :: k in m <==> LastIndexOf(tags, TagKey, k).Some?
    ensures forall k :: k in m ==> m[k] == ToResourceName(tags[LastIndexOf(tags, TagKey, k).value].name)
  {
    var index := Index(tags, TagKey);
    map k | k in index :: ToResourceName(index[k].name)
  }

  /** The reference written for a tag with resource name `name`. */
  function TagRef(name: string): (ref: string)
    ensures (forall i :: 0 <= i < |name| ==> IsNameChar(name[i])) ==> ',' !in ref
  {
    "habitica_tag." + name + ".id"
  }

  /** tag_refs: references to the tags the lookup knows, in the task's order. */
  function TagRefs(ids: seq<string>, lookup: map<string, string>): (refs: seq<string>)
    ensures |refs| <= |ids|
    ensures (forall i :: 0 <= i < |ids| ==> ids[i] in lookup) ==>
              |refs| == |ids| && forall i :: 0 <= i < |ids| ==> refs[i] == TagRef(lookup[ids[i]])
    ensures (forall i :: 0 <= i < |ids| ==> ids[i] !in lookup) ==> refs == []
    ensures forall j :: 0 <= j < |refs| ==> exists k :: k in lookup && refs[j] == TagRef(lookup[k])
  {
    var names := Resolve(ids, lookup);
    seq(|names|, i requires 0 <= i < |names| => TagRef(names[i]))
  }

  /** References can be computed piecewise: a task's references are those of each of its IDs
      in turn. */
  lemma TagRefsAppend(a: seq<string>, b: seq<string>, lookup: map<string, string>)
    ensures TagRefs(a + b, lookup) == TagRefs(a, lookup) + TagRefs(b, lookup)
  {
    ResolveAppend(a, b, lookup);
  }

  /** str.replace with a one-character pattern. */
  function ReplaceChar(s: string, c: char, rep: string): (r: string)
    ensures c !in s ==> r == s
  {
    if |s| == 0 then ""
    else (if s[0] == c then rep else [s[0]]) + ReplaceChar(s[1..], c, rep)
  }

  lemma {:induction false} ReplaceCharAppend(a: string, b: string, c: char, rep: string)
    ensures ReplaceChar(a + b, c, rep) == ReplaceChar(a, c, rep) + ReplaceChar(b, c, rep)
    decreases |a|
  {
    if |a| == 0 {
      assert a + b == b;
    } else {
      assert (a + b)[0] == a[0];
      assert (a + b)[1..] == a[1..] + b;
      ReplaceCharAppend(a[1..], b, c, rep);
    }
  }

  /** A carriage return or line feed: HCL's quoted-string syntax admits neither literally. */
  predicate IsLineBreak(c: char) {
    c == '\n' || c == '\r'
  }

  /** Text without a literal line break. */
  predicate OneLine(s: string) {
    forall i :: 0 <= i < |s| ==> !IsLineBreak(s[i])
  }

  lemma OneLineCons(s: string)
    requires |s| > 0
    ensures OneLine(s) <==> !IsLineBreak(s[0]) && OneLine(s[1..])
  {
    if !OneLine(s) && !IsLineBreak(s[0]) {
      var i :| 0 <= i < |s| && IsLineBreak(s[i]);
      assert s[1..][i - 1] == s[i];
    }
  }

  lemma OneLineAppend(a: string, b: string)
    ensures OneLine(a + b) <==> OneLine(a) && OneLine(b)
  {
    if OneLine(a + b) {
      assert forall i :: 0 <= i < |a| ==> a[i] == (a + b)[i];
      assert forall i :: 0 <= i < |b| ==> b[i] == (a + b)[|a| + i];
    } else if OneLine(a) && OneLine(b) {
      forall i | 0 <= i < |a + b| ensures !IsLineBreak((a + b)[i]) {
        if i < |a| {
          assert (a + b)[i] == a[i];
        } else {
          assert (a + b)[i] == b[i - |a|];
        }
      }
    }
  }

  /** HCL's quoted-string escape of one character, as the notes line applies it. */
  function EscapeChar(c: char): string {
    if c == '\\' then "\\\\" else if c == '"' then "\\\"" else [c]
  }

  /** Escaping a whole value character by character: backslashes and quotes only. */
  function Escape(s: string): string {
    if |s| == 0 then "" else EscapeChar(s[0]) + Escape(s[1..])
  }

  /** The character a one-letter escape sequence stands for. */
  function EscapeValue(c: char): Option<char> {
    match c
    case '\\' => Some('\\')
    case '"' => Some('"')
    case 'n' => Some('\n')
    case 'r' => Some('\r')
    case 't' => Some('\t')
    case _ => None
  }

  predicate IsHexDigit(c: char) {
    '0' <= c <= '9' || 'a' <= c <= 'f' || 'A' <= c <= 'F'
  }

  predicate AllHex(s: string) {
    forall i :: 0 <= i < |s| ==> IsHexDigit(s[i])
  }

  function HexDigitValue(c: char): nat
    requires IsHexDigit(c)
  {
    if '0' <= c <= '9' then c as int - '0' as int
    else if 'a' <= c <= 'f' then c as int - 'a' as int + 10
    else c as int - 'A' as int + 10
  }

  /** The number a run of hexadecimal digits spells, most significant first. */
  function HexValue(s: string): nat
    requires AllHex(s)
  {
    if |s| == 0 then 0 else 16 * HexValue(s[..|s| - 1]) + HexDigitValue(s[|s| - 1])
  }

  /** The character with a code point, or None for a surrogate or a number beyond Unicode,
      which UTF-8 cannot encode. */
  function CodePoint(n: nat): Option<char> {
    if n < 0xD800 || 0xE000 <= n < 0x11_0000 then Some(n as char) else None
  }

  /** How many hexadecimal digits follow `\u` and `\U`. */
  function HexLength(c: char): nat {
    if c == 'u' then 4 else if c == 'U' then 8 else 0
  }

  /** How HCL reads the characters between the quotes of a quoted value: None when an
      unescaped quote would end it early, when it holds a literal line break, when the final
      backslash would escape the closing quote, or for an escape it does not know. */
  function Unescape(s: string): (r: Option<string>)
    ensures r.Some? ==> |r.value| <= |s|
    ensures r.Some? ==> OneLine(s)
    ensures r.Some? ==> forall i :: 0 <= i < |s| && s[i] == '"' ==> 0 < i && s[i - 1] == '\\'
  {
    if |s| == 0 then Some("")
    else if s[0] == '"' || IsLineBreak(s[0]) then None
    else if s[0] == '\\' then
      if |s| == 1 then None
      else if HexLength(s[1]) > 0 then
        var n := HexLength(s[1]);
        if |s| < 2 + n || !AllHex(s[2..2 + n]) then None
        else
          match CodePoint(HexValue(s[2..2 + n]))
          case None => None
          case Some(c) =>
            match Unescape(s[2 + n..])
            case None => None
            case Some(rest) =>
              assert forall i :: 2 <= i < 2 + n ==> IsHexDigit(s[i]) by {
                forall i | 2 <= i < 2 + n ensures IsHexDigit(s[i]) {
                  assert s[i] == s[2..2 + n][i - 2];
                }
              }
              assert forall i :: 2 + n <= i < |s| ==> s[i] == s[2 + n..][i - 2 - n];
              Some([c] + rest)
      else
        match EscapeValue(s[1])
        case None => None
        case Some(c) =>
          match Unescape(s[2..])
          case None => None
          case Some(rest) =>
            assert forall i :: 2 <= i < |s| ==> s[i] == s[2..][i - 2];
            Some([c] + rest)
    else
      match Unescape(s[1..])
      case None => None
      case Some(rest) =>
        assert forall i :: 1 <= i < |s| ==> s[i] == s[1..][i - 1];
        Some([s[0]] + rest)
  }

  /** The escape of one character that every value needs: backslash and quote as in
      EscapeChar, and the two line breaks as `\n` and `\r`. */
  function QuoteChar(c: char): string {
    if c == '\n' then "\\n" else if c == '\r' then "\\r" else EscapeChar(c)
  }

  /** Reading an escaped character followed by more text gives the character followed by
      what the rest reads as. */
  lemma UnescapeQuoteChar(c: char, rest: string)
    ensures Unescape(QuoteChar(c) + rest) ==
      (match Unescape(rest) case None => None case Some(t) => Some([c] + t))
  {
    var e := QuoteChar(c) + rest;
    if |QuoteChar(c)| == 2 {
      assert e[0] == '\\' && e[1] == QuoteChar(c)[1] && e[2..] == rest;
    } else {
      assert e[0] == c && e[1..] == rest;
    }
  }

  /** The escaping every quoted value needs, which any text survives. */
  function Quote(s: string): (r: string)
    ensures Unescape(r) == Some(s)
    ensures OneLine(s) ==> r == Escape(s)
  {
    if |s| == 0 then ""
    else
      var rest := Quote(s[1..]);
      UnescapeQuoteChar(s[0], rest);
      OneLineCons(s);
      assert [s[0]] + s[1..] == s;
      QuoteChar(s[0]) + rest
  }

  /** Escaping backslashes and quotes is undone by HCL's reading of the value exactly when
      the text has no line break; a line break makes the value unreadable. */
  lemma {:induction false} EscapeRoundTrip(s: string)
    ensures Unescape(Escape(s)) == if OneLine(s) then Some(s) else None
    decreases |s|
  {
    if |s| > 0 {
      EscapeRoundTrip(s[1..]);
      OneLineCons(s);
      if IsLineBreak(s[0]) {
        assert Escape(s)[0] == s[0];
      } else {
        assert EscapeChar(s[0]) == QuoteChar(s[0]);
        UnescapeQuoteChar(s[0], Escape(s[1..]));
        assert [s[0]] + s[1..] == s;
      }
    }
  }

  /** Lines 119 and 139 of the script: backslashes doubled first, then quotes escaped. */
  function EscapeNotes(s: string): (r: string)
    ensures r == Escape(s)
  {
    NotesEscapeIsEscape(s);
    ReplaceChar(ReplaceChar(s, '\\', "\\\\"), '"', "\\\"")
  }

  /** The two passes over notes amount to escaping each character once, because the first
      pass introduces only backslashes, which the second leaves alone. */
  lemma {:induction false} NotesEscapeIsEscape(s: string)
    ensures ReplaceChar(ReplaceChar(s, '\\', "\\\\"), '"', "\\\"") == Escape(s)
    decreases |s|
  {
    if |s| > 0 {
      NotesEscapeIsEscape(s[1..]);
      assert s == [s[0]] + s[1..];
      ReplaceCharAppend([s[0]], s[1..], '\\', "\\\\");
      var once := ReplaceChar([s[0]], '\\', "\\\\");
      ReplaceCharAppend(once, ReplaceChar(s[1..], '\\', "\\\\"), '"', "\\\"");
      assert [s[0]][1..] == [];
      if s[0] == '\\' {
        assert once == "\\\\";
        assert ReplaceChar(once, '"', "\\\"") == "\\\\";
      } else if s[0] == '"' {
        assert ReplaceChar(once, '"', "\\\"") == "\\\"";
      } else {
        assert ReplaceChar(once, '"', "\\\"") == [s[0]];
      }
    }
  }

  /** Notes with a line break are written as a quoted value HCL rejects, so the generated
      file does not load: a two-line note is enough. */
  lemma NotesEscapeAsWrittenBreaks(s: string)
    ensures !OneLine(s) ==> Unescape(EscapeNotes(s)) == None
    ensures Unescape(EscapeNotes("a\nb")) == None
  {
    EscapeRoundTrip(s);
    EscapeRoundTrip("a\nb");
    assert "a\nb"[1] == '\n';
  }

  /** The escaping lines 123 and 161 of the script apply to task text: quotes only. */
  function EscapeTextAsWritten(s: string): (r: string)
    ensures '"' !in s ==> r == s
    ensures OneLine(r) ==> OneLine(s)
  {
    ReplaceKeepsBreaks(s, '"', "\\\"");
    ReplaceChar(s, '"', "\\\"")
  }

  /** Replacing a character that is not a line break keeps every line break. */
  lemma {:induction false} ReplaceKeepsBreaks(s: string, c: char, rep: string)
    requires !IsLineBreak(c)
    ensures OneLine(ReplaceChar(s, c, rep)) ==> OneLine(s)
    decreases |s|
  {
    if |s| > 0 {
      ReplaceKeepsBreaks(s[1..], c, rep);
      OneLineCons(s);
      var head := if s[0] == c then rep else [s[0]];
      OneLineAppend(head, ReplaceChar(s[1..], c, rep));
      if s[0] != c && OneLine(head) {
        assert head[0] == s[0];
      }
    }
  }

  /** A title that is a single backslash is written as a value whose backslash escapes the
      closing quote, and a title holding a backslash before "n" reads back with a newline. */
  lemma TextEscapeAsWrittenBreaks()
    ensures Unescape(EscapeTextAsWritten("\\")) == None
    ensures Unescape(EscapeTextAsWritten("\\n")) == Some("\n")
  {
    assert EscapeTextAsWritten("\\") == "\\";
    assert EscapeTextAsWritten("\\n") == "\\n";
    assert "\\n"[1] == 'n' && "\\n"[2..] == "";
    assert Unescape("") == Some("");
    assert ['\n'] + "" == "\n";
  }

  /** A title holding `\u0041` is written unchanged and reads back as "A". */
  lemma TextUnicodeEscapeAsWritten()
    ensures Unescape(EscapeTextAsWritten("\\u0041")) == Some("A")
  {
    var u := "\\u0041";
    assert '"' !in u by {
      assert u == ['\\', 'u', '0', '0', '4', '1'];
    }
    assert EscapeTextAsWritten(u) == u;
    HexExample();
    assert CodePoint(65) == Some('A');
    assert u[0] == '\\' && u[1] == 'u' && HexLength(u[1]) == 4;
    assert u[2..6] == "0041" && u[6..] == "";
    assert Unescape(u[6..]) == Some("");
    assert ['A'] + "" == "A";
  }

  lemma HexExample()
    ensures AllHex("0041") && HexValue("0041") == 65
  {
    assert "0041"[..3] == "004" && "004"[..2] == "00" && "00"[..1] == "0" && "0"[..0] == "";
    assert HexValue("0") == 0 && HexValue("00") == 0 && HexValue("004") == 4;
  }

  /** The corrected escaping agrees with the script's wherever the script's is adequate:
      with notes on one line, and with titles on one line and without a backslash. */
  lemma {:induction false} QuoteAgreesWithScript(s: string)
    ensures OneLine(s) ==> Quote(s) == EscapeNotes(s)
    ensures OneLine(s) && '\\' !in s ==> Quote(s) == EscapeTextAsWritten(s)
  {
    EscapeAgreesWithoutBackslash(s);
  }

  /** Where a title has no backslash, escaping it fully and the script's quote-only escaping
      coincide. */
  lemma {:induction false} EscapeAgreesWithoutBackslash(s: string)
    ensures '\\' !in s ==> Escape(s) == EscapeTextAsWritten(s)
    decreases |s|
  {
    if |s| > 0 {
      EscapeAgreesWithoutBackslash(s[1..]);
      if '\\' !in s {
        assert '\\' !in s[1..] by {
          forall i | 0 <= i < |s[1..]| ensures s[1..][i] != '\\' {
            assert s[1..][i] == s[i + 1];
          }
        }
      }
    }
  }

  /** A start date as written: the first ten characters of the API's timestamp, or empty when
      the key is absent. */
  function ImportStartDate(startDate: Option<string>): (r: string)
    ensures |r| <= 10
    ensures startDate.None? ==> r == ""
    ensures startDate.Some? ==> r == startDate.value[..Min(|startDate.value|, 10)]
  {
    match startDate
    case None => ""
    case Some(s) => s[..Min(|s|, 10)]
  }

  /** An ISO timestamp whose first ten characters are a date imports as that date when the
      daily resource reads the attribute, and an absent one imports as no start date. */
  lemma ImportedStartDateReads(s: string)
    requires |s| >= 10
    ensures DailyResource.StartDateOf(Known(ImportStartDate(Some(s)))) == ParseDate(s[..10])
    ensures DailyResource.StartDateOf(Known(ImportStartDate(None))).None?
  {
  }

  /** The repeat days written: the API's short keys, each defaulting to the daily resource's
      own default (Monday to Friday on, the weekend off). */
  function ImportRepeat(repeat: Option<map<string, bool>>): (r: RepeatConfig)
    ensures repeat.None? ==> r == DailyResource.Weekdays
    ensures repeat.Some? ==>
      && r.monday == ("m" !in repeat.value || repeat.value["m"])
      && r.tuesday == ("t" !in repeat.value || repeat.value["t"])
      && r.wednesday == ("w" !in repeat.value || repeat.value["w"])
      && r.thursday == ("th" !in repeat.value || repeat.value["th"])
      && r.friday == ("f" !in repeat.value || repeat.value["f"])
      && r.saturday == ("s" in repeat.value && repeat.value["s"])
      && r.sunday == ("su" in repeat.value && repeat.value["su"])
  {
    var m := repeat.GetOr(map[]);
    RepeatConfig(
      KeyOr(m, "m", true), KeyOr(m, "t", true), KeyOr(m, "w", true), KeyOr(m, "th", true),
      KeyOr(m, "f", true), KeyOr(m, "s", false), KeyOr(m, "su", false))
  }

  /** dict.get with a default. */
  function KeyOr(m: map<string, bool>, key: string, default: bool): bool {
    if key in m then m[key] else default
  }

  /** A key present in the API's repeat map is a known day; an absent one is left unset. */
  function DayValue(m: map<string, bool>, key: string): Value<bool> {
    if key in m then Known(m[key]) else Null
  }

  /** The script fills absent repeat keys exactly as the daily resource fills unset days, so
      importing and then applying sends the days the API reported. */
  lemma ImportRepeatAgrees(m: map<string, bool>)
    ensures ImportRepeat(Some(m)) ==
      DailyResource.RepeatOf(Some(DailyResource.RepeatModel(
        DayValue(m, "m"), DayValue(m, "t"), DayValue(m, "w"), DayValue(m, "th"),
        DayValue(m, "f"), DayValue(m, "s"), DayValue(m, "su"))))
    ensures ImportRepeat(None) == DailyResource.RepeatOf(None)
  {
  }

  /** A habit as the API lists it; keys absent from the JSON are None. */
  datatype ApiHabit = ApiHabit(
    id: string, text: string, notes: Option<string>, up: Option<bool>, down: Option<bool>,
    tags: Option<seq<string>>)

  /** A daily as the API lists it; keys absent from the JSON are None. */
  datatype ApiDaily = ApiDaily(
    id: string, text: string, notes: Option<string>, frequency: Option<string>, everyX: Option<int>,
    startDate: Option<string>, repeat: Option<map<string, bool>>, tags: Option<seq<string>>)

  /** The values written into a tag's resource block: its resource name, and its name as
      the characters between the quotes. */
  datatype TagBlock = TagBlock(name: string, tagName: string)

  /** A tag's block as lines 104-111 of the script write it: the name is put between quotes
      with no escaping at all. It reads back as itself when it holds no quote, backslash or
      line break, and a quote in a name without backslashes makes the value unreadable. */
  function TagBlockOf(t: Tag): (b: TagBlock)
    ensures b.name == ToResourceName(t.name)
    ensures '"' !in t.name && '\\' !in t.name && OneLine(t.name) ==> Unescape(b.tagName) == Some(t.name)
    ensures !OneLine(t.name) ==> Unescape(b.tagName) == None
    ensures '"' in t.name && '\\' !in t.name ==> Unescape(b.tagName) == None
  {
    EscapeAgreesWithoutBackslash(t.name);
    EscapeRoundTrip(t.name);
    UnescapeBareQuote(t.name);
    TagBlock(ToResourceName(t.name), t.name)
  }

  /** A quote with no backslash anywhere before it ends the value early. */
  lemma UnescapeBareQuote(s: string)
    ensures '"' in s && '\\' !in s ==> Unescape(s) == None
  {
  }

  /** The tag block with its name escaped as HCL needs: every name reads back as itself, and
      the block is the script's wherever the name needs no escape. */
  function IntendedTagBlock(t: Tag): (b: TagBlock)
    ensures Unescape(b.tagName) == Some(t.name)
    ensures b.name == TagBlockOf(t).name
    ensures '"' !in t.name && '\\' !in t.name && OneLine(t.name) ==> b == TagBlockOf(t)
  {
    QuoteAgreesWithScript(t.name);
    TagBlock(ToResourceName(t.name), Quote(t.name))
  }

  /** The values written into a habit's resource block; quoted values are given without
      their quotes. Priority is not modelled. */
  datatype HabitBlock = HabitBlock(name: string, text: string, notes: string, up: bool, down: bool, tagRefs: seq<string>)

  datatype DailyBlock = DailyBlock(
    name: string, text: string, notes: string, frequency: string, everyX: int,
    startDate: string, repeat: RepeatConfig, tagRefs: seq<string>)

  /** A habit's block as lines 115-131 of the script write it: the title escaped for quotes
      only, the notes for backslashes and quotes. The title reads back as itself when it is
      on one line and has no backslash, the notes when they are on one line; a line break in
      either makes the value unreadable. */
  function HabitBlockOf(h: ApiHabit, lookup: map<string, string>): (b: HabitBlock)
    ensures b.name == ToResourceName(h.text)
    ensures OneLine(h.text) && '\\' !in h.text ==> Unescape(b.text) == Some(h.text)
    ensures !OneLine(h.text) ==> Unescape(b.text) == None
    ensures Unescape(b.notes) == if OneLine(h.notes.GetOr("")) then Some(h.notes.GetOr("")) else None
    ensures b.up == h.up.GetOr(true) && b.down == h.down.GetOr(false)
    ensures b.tagRefs == TagRefs(h.tags.GetOr([]), lookup)
  {
    EscapeRoundTrip(h.text);
    EscapeAgreesWithoutBackslash(h.text);
    EscapeRoundTrip(h.notes.GetOr(""));
    HabitBlock(ToResourceName(h.text), EscapeTextAsWritten(h.text), EscapeNotes(h.notes.GetOr("")),
               h.up.GetOr(true), h.down.GetOr(false), TagRefs(h.tags.GetOr([]), lookup))
  }

  /** The habit block with both quoted values escaped as HCL needs: every title and every
      note reads back as itself, and the block is the script's wherever the script's
      escaping is adequate. */
  function IntendedHabitBlock(h: ApiHabit, lookup: map<string, string>): (b: HabitBlock)
    ensures Unescape(b.text) == Some(h.text) && Unescape(b.notes) == Some(h.notes.GetOr(""))
    ensures b.(text := "", notes := "") == HabitBlockOf(h, lookup).(text := "", notes := "")
    ensures OneLine(h.text) && '\\' !in h.text && OneLine(h.notes.GetOr("")) ==> b == HabitBlockOf(h, lookup)
  {
    QuoteAgreesWithScript(h.text);
    QuoteAgreesWithScript(h.notes.GetOr(""));
    HabitBlock(ToResourceName(h.text), Quote(h.text), Quote(h.notes.GetOr("")),
               h.up.GetOr(true), h.down.GetOr(false), TagRefs(h.tags.GetOr([]), lookup))
  }

  /** The script's defaults for a habit's up and down agree with the habit resource's: the
      block, read back by the resource, sends what the API reported. */
  lemma ImportHabitAgrees(h: ApiHabit, lookup: map<string, string>, m: HabitResource.HabitModel)
    ensures var b := HabitBlockOf(h, lookup);
      var t := HabitResource.CreateTask(m.(up := Known(b.up), down := Known(b.down)));
      t.up == Some(h.up.GetOr(true)) && t.down == Some(h.down.GetOr(false))
  {
  }

  /** A daily's block as lines 135-171 of the script write it, with the same escaping as a
      habit's and the defaults of absent keys. */
  function DailyBlockOf(d: ApiDaily, lookup: map<string, string>): (b: DailyBlock)
    ensures b.name == ToResourceName(d.text)
    ensures OneLine(d.text) && '\\' !in d.text ==> Unescape(b.text) == Some(d.text)
    ensures !OneLine(d.text) ==> Unescape(b.text) == None
    ensures Unescape(b.notes) == if OneLine(d.notes.GetOr("")) then Some(d.notes.GetOr("")) else None
    ensures b.frequency == d.frequency.GetOr("weekly") && b.everyX == d.everyX.GetOr(1)
    ensures b.startDate == ImportStartDate(d.startDate)
    ensures b.repeat == ImportRepeat(d.repeat)
    ensures b.tagRefs == TagRefs(d.tags.GetOr([]), lookup)
  {
    EscapeRoundTrip(d.text);
    EscapeAgreesWithoutBackslash(d.text);
    EscapeRoundTrip(d.notes.GetOr(""));
    DailyBlock(ToResourceName(d.text), EscapeTextAsWritten(d.text), EscapeNotes(d.notes.GetOr("")),
               d.frequency.GetOr("weekly"), d.everyX.GetOr(1), ImportStartDate(d.startDate),
               ImportRepeat(d.repeat), TagRefs(d.tags.GetOr([]), lookup))
  }

  /** The daily block with both quoted values escaped as HCL needs. */
  function IntendedDailyBlock(d: ApiDaily, lookup: map<string, string>): (b: DailyBlock)
    ensures Unescape(b.text) == Some(d.text) && Unescape(b.notes) == Some(d.notes.GetOr(""))
    ensures b.(text := "", notes := "") == DailyBlockOf(d, lookup).(text := "", notes := "")
    ensures OneLine(d.text) && '\\' !in d.text && OneLine(d.notes.GetOr("")) ==> b == DailyBlockOf(d, lookup)
  {
    QuoteAgreesWithScript(d.text);
    QuoteAgreesWithScript(d.notes.GetOr(""));
    DailyBlock(ToResourceName(d.text), Quote(d.text), Quote(d.notes.GetOr("")),
               d.frequency.GetOr("weekly"), d.everyX.GetOr(1), ImportStartDate(d.startDate),
               ImportRepeat(d.repeat), TagRefs(d.tags.GetOr([]), lookup))
  }

  /** Joins strings with a separator, as str.join does. */
  function Join(parts: seq<string>, sep: string): string {
    if |parts| == 0 then ""
    else if |parts| == 1 then parts[0]
    else parts[0] + sep + Join(parts[1..], sep)
  }

  /** str.split(", "): the pieces between the separators, found from the left. */
  function SplitList(s: string): (parts: seq<string>)
    ensures |parts| > 0
  {
    if |s| == 0 then [""]
    else if |s| >= 2 && s[0] == ',' && s[1] == ' ' then [""] + SplitList(s[2..])
    else
      var rest := SplitList(s[1..]);
      [[s[0]] + rest[0]] + rest[1..]
  }

  /** Text without a comma joins onto the first piece of whatever follows it. */
  lemma {:induction false} SplitPrefix(p: string, t: string)
    requires ',' !in p
    ensures SplitList(p + t) == [p + SplitList(t)[0]] + SplitList(t)[1..]
    decreases |p|
  {
    if |p| == 0 {
      assert p + t == t;
      assert p + SplitList(t)[0] == SplitList(t)[0];
      assert [SplitList(t)[0]] + SplitList(t)[1..] == SplitList(t);
    } else {
      assert (p + t)[0] == p[0];
      assert (p + t)[1..] == p[1..] + t;
      assert ',' !in p[1..];
      SplitPrefix(p[1..], t);
      assert [p[0]] + (p[1..] + SplitList(t)[0]) == p + SplitList(t)[0];
    }
  }

  /** Splitting a joined list at ", " gives back its parts, when no part holds a comma. */
  lemma {:induction false} SplitJoin(parts: seq<string>)
    requires |parts| > 0
    requires forall i :: 0 <= i < |parts| ==> ',' !in parts[i]
    ensures SplitList(Join(parts, ", ")) == parts
    decreases |parts|
  {
    if |parts| == 1 {
      SplitPrefix(parts[0], "");
      assert parts[0] + "" == parts[0];
      assert [parts[0]] == parts;
    } else {
      var rest := Join(parts[1..], ", ");
      assert parts[0] + ", " + rest == parts[0] + (", " + rest);
      SplitPrefix(parts[0], ", " + rest);
      assert (", " + rest)[2..] == rest;
      assert SplitList(", " + rest) == [""] + SplitList(rest);
      SplitJoin(parts[1..]);
      assert parts[0] + "" == parts[0];
      assert [parts[0]] + parts[1..] == parts;
    }
  }

  /** The tags line of a block: omitted (empty) exactly when no reference survives, and
      otherwise the prefix and a bracketed list that splits back into the references. */
  function TagsLine(refs: seq<string>, prefix: string): (line: string)
    ensures line == "" <==> |refs| == 0
    ensures |refs| > 0 ==>
      |prefix| + 2 <= |line| && line[..|prefix|] == prefix && line[|prefix|] == '[' && line[|line| - 1] == ']'
    ensures |refs| > 0 ==> line[|prefix| + 1 .. |line| - 1] == Join(refs, ", ")
    ensures |refs| > 0 && (forall i :: 0 <= i < |refs| ==> ',' !in refs[i]) ==>
      SplitList(line[|prefix| + 1 .. |line| - 1]) == refs
  {
    if |refs| == 0 then ""
    else
      var line := prefix + "[" + Join(refs, ", ") + "]";
      assert line[|prefix| + 1 .. |line| - 1] == Join(refs, ", ");
      if forall i :: 0 <= i < |refs| ==> ',' !in refs[i] then SplitJoin(refs); line else line
  }

  /** The references the script writes for a task, with the lookup built from the account's
      tags, hold no comma, so its tags line lists exactly those references. */
  lemma ImportedTagsLineLists(ids: seq<string>, tags: seq<Tag>, prefix: string)
    ensures var refs := TagRefs(ids, TagLookup(tags));
      var line := TagsLine(refs, prefix);
      |refs| > 0 ==> SplitList(line[|prefix| + 1 .. |line| - 1]) == refs
  {
    var lookup := TagLookup(tags);
    var refs := TagRefs(ids, lookup);
    forall j | 0 <= j < |refs| ensures ',' !in refs[j] {
      var k :| k in lookup && refs[j] == TagRef(lookup[k]);
      var name := lookup[k];
      assert forall i :: 0 <= i < |name| ==> IsNameChar(name[i]);
    }
  }
}

=== FILE: ratelimit.dfy ===
/** The rate governor: the remaining-request budget and its reset time, as read from the
    X-RateLimit-* response headers, and the gate consulted before every attempt. */
module RateLimit {
  import opened Wrappers
  import Decimal

  const NanosPerSecond: int := 1_000_000_000
  /** The largest time.Duration, in nanoseconds. */
  const MaxDuration: int := Decimal.MaxInt64
  /** time.Time{} (January 1, year 1, UTC) in Unix seconds: the reset time before any header. */
  const ZeroTimeUnix: int := -62135596800
  /** New starts optimistic with 30 requests remaining. */
  const InitialRemaining: int := 30

  /** `remaining` is the last advertised budget; `reset` is the time it refills, in Unix seconds. */
  datatype Budget = Budget(remaining: int, reset: int)

  const InitialBudget := Budget(InitialRemaining, ZeroTimeUnix)

  /** The two header values as http.Header.Get returns them: "" when the header is absent. */
  datatype RateHeaders = RateHeaders(remaining: string, reset: string)

  /** Seconds from January 1, year 1 to the Unix epoch: time.Time counts its seconds from
      year 1, so time.Unix(ts, 0) stores ts + UnixToInternal in an int64. */
  const UnixToInternal: int := 62135596800

  /** The Unix second that time.Unix(ts, 0) actually denotes: ts itself unless adding the
      year-1 offset overflows int64, in which case the stored seconds wrap around. */
  function ResetSeconds(ts: int): (r: int)
    ensures Decimal.MinInt64 - UnixToInternal <= r <= Decimal.MaxInt64 - UnixToInternal
    ensures ts <= Decimal.MaxInt64 - UnixToInternal && ts >= Decimal.MinInt64 - UnixToInternal ==> r == ts
  {
    Decimal.Wrap64(ts + UnixToInternal) - UnixToInternal
  }

  /** updateRateLimits: each field takes the value of its header when the header is present and
      is a decimal 64-bit integer, and otherwise keeps its prior value (never an error). The
      reset is kept as the instant time.Unix makes of the header's seconds. */
  function Update(b: Budget, h: RateHeaders): (b': Budget)
    ensures b'.remaining == b.remaining || Decimal.ParseInt64(h.remaining) == Some(b'.remaining)
    ensures b'.reset == b.reset ||
              (Decimal.ParseInt64(h.reset).Some? && b'.reset == ResetSeconds(Decimal.ParseInt64(h.reset).value))
    ensures Decimal.ParseInt64(h.remaining).Some? ==> b'.remaining == Decimal.ParseInt64(h.remaining).value
    ensures Decimal.ParseInt64(h.reset).Some? ==> b'.reset == ResetSeconds(Decimal.ParseInt64(h.reset).value)
  {
    var remaining :=
      if h.remaining != "" then Decimal.ParseInt64(h.remaining).GetOr(b.remaining) else b.remaining;
    var reset :=
      if h.reset != "" then
        match Decimal.ParseInt64(h.reset)
        case Some(ts) => ResetSeconds(ts)
        case None => b.reset
      else b.reset;
    Budget(remaining, reset)
  }

  /** How long the attempt must wait before it is sent, or None to proceed at once: it waits
      exactly while the budget is below the buffer and the reset time is still ahead, and then
      until the reset time (time.Until, which saturates at the largest Duration). */
  function GateWait(b: Budget, buffer: int, now: int): (w: Option<int>)
    ensures w.Some? <==> b.remaining < buffer && now < b.reset * NanosPerSecond
    ensures w.Some? ==> 0 < w.value <= MaxDuration
    ensures w.Some? && b.reset * NanosPerSecond - now <= MaxDuration ==>
              now + w.value == b.reset * NanosPerSecond
  {
    if b.remaining < buffer && now < b.reset * NanosPerSecond then
      var until := b.reset * NanosPerSecond - now;
      Some(if until > MaxDuration then MaxDuration else until)
    else None
  }

  /** Headers that spell two 64-bit integers set the budget to exactly those values, the
      reset as time.Unix stores it (the value itself for any date before the year 292277026596). */
  lemma {:induction false} UpdateFromHeaders(b: Budget, remaining: int, reset: int)
    requires Decimal.MinInt64 <= remaining <= Decimal.MaxInt64
    requires Decimal.MinInt64 <= reset <= Decimal.MaxInt64
    ensures Update(b, RateHeaders(Decimal.FormatInt(remaining), Decimal.FormatInt(reset))) ==
              Budget(remaining, ResetSeconds(reset))
    ensures reset <= Decimal.MaxInt64 - UnixToInternal ==>
      Update(b, RateHeaders(Decimal.FormatInt(remaining), Decimal.FormatInt(reset))) == Budget(remaining, reset)
  {
    Decimal.ParseFormatRoundTrip(remaining);
    Decimal.ParseFormatRoundTrip(reset);
  }

  /** Fail open: absent or malformed headers leave the budget as it was. */
  lemma UpdateFailsOpen(b: Budget, h: RateHeaders)
    requires Decimal.ParseInt64(h.remaining).None? && Decimal.ParseInt64(h.reset).None?
    ensures Update(b, h) == b
  {
  }

  /** The initial budget never blocks: its reset time lies before any reading of the clock
      from year 1 on, so the first attempt is gated only once a response has set a reset. */
  lemma InitialBudgetOpen(buffer: int, now: int)
    requires now >= ZeroTimeUnix * NanosPerSecond
    ensures GateWait(InitialBudget, buffer, now).None?
  {
  }

  /** A reset header so large that time.Unix overflows lands before year 1, so it never makes
      the client wait, however low the budget. */
  lemma {:induction false} OverflowingResetOpen(b: Budget, remaining: int, ts: int, buffer: int, now: int)
    requires Decimal.MinInt64 <= remaining <= Decimal.MaxInt64
    requires ZeroTimeUnix * NanosPerSecond <= now <= Decimal.MaxInt64
    ensures Decimal.MaxInt64 - UnixToInternal < ts <= Decimal.MaxInt64 ==>
      GateWait(Update(b, RateHeaders(Decimal.FormatInt(remaining), Decimal.FormatInt(ts))), buffer, now).None?
  {
    if Decimal.MaxInt64 - UnixToInternal < ts <= Decimal.MaxInt64 {
      UpdateFromHeaders(b, remaining, ts);
      var stored := ts + UnixToInternal;
      assert Decimal.MaxInt64 < stored < Decimal.TwoTo64;
      assert stored % Decimal.TwoTo64 == stored;
      var reset := ResetSeconds(ts);
      assert reset == ts - Decimal.TwoTo64 && reset < ZeroTimeUnix;
      assert reset * NanosPerSecond < ZeroTimeUnix * NanosPerSecond;
    }
  }
}

=== FILE: retry.dfy ===
/** The retry orchestrator: the attempt loop of `do` (internal/client/client.go), as a pure
    function of the client's policy, its rate budget and what the environment does at each
    attempt. HTTP itself is abstract: an attempt's outcome, the clock reading at its rate
    check and whether the caller's context fired during each wait are inputs. */
module Retry {
  import opened Wrappers
  import opened Errors
  import opened RateLimit
  import Decimal

  /** A response body: its raw text, and the `message` field of the API envelope when the
      body decodes as one (None when it does not decode). */
  datatype Body = Body(raw: string, message: Option<string>)

  /** What one attempt yields. Status and rate headers arrive before the body is read. */
  datatype Outcome =
    | SendFailed(reason: string)
    | ReadFailed(status: int, headers: RateHeaders, reason: string)
    | Answered(status: int, headers: RateHeaders, body: Body)

  /** The environment at attempt k: whether the context fires during the backoff wait before
      it, the clock (Unix nanoseconds) at its rate check, whether the context fires during the
      rate wait, and the attempt's outcome. */
  datatype Step = Step(backoffCancelled: bool, now: int, waitCancelled: bool, outcome: Outcome)

  /** The client settings the loop reads; baseDelay is a time.Duration in nanoseconds. */
  datatype Policy = Policy(buffer: int, maxRetries: int, baseDelay: int)

  /** The loop's state between attempts: the budget, the last recorded failure and the waits
      begun so far (backoff delays and rate waits, in nanoseconds, in order). */
  datatype Progress = Progress(budget: Budget, last: Option<Error>, backoffs: seq<int>, throttles: seq<int>)

  /** The whole call: its result, how many requests were sent, the final budget, the waits. */
  datatype Run = Run(result: Result<string, Error>, attempts: nat, budget: Budget, backoffs: seq<int>, throttles: seq<int>)

  datatype Turn = Again(next: Progress) | Done(run: Run)

  function Pow2(n: nat): (p: nat)
    ensures p >= 1
  {
    if n == 0 then 1 else 2 * Pow2(n - 1)
  }

  /** `c.baseRetryDelay * time.Duration(1<<(attempt-1))` in 64-bit Duration arithmetic. */
  function BackoffDelay(base: int, attempt: nat): int
    requires attempt >= 1
  {
    Decimal.Wrap64(base * Decimal.Wrap64(Pow2(attempt - 1)))
  }

  /** The backoff delays before attempts 1, 2, ..., n. */
  function Schedule(base: int, n: nat): (s: seq<int>)
    ensures |s| == n
  {
    seq(n, i requires 0 <= i < n => BackoffDelay(base, i + 1))
  }

  /** The error text of a terminal response: the envelope's message when the body decodes
      and the message is non-empty, otherwise the raw body. */
  function Detail(body: Body): string {
    if body.message.Some? && body.message.value != "" then body.message.value else body.raw
  }

  /** The backoffs begun once attempt k has started its backoff wait (none before attempt 0). */
  function Began(base: int, k: nat, backoffs: seq<int>): seq<int> {
    if k > 0 then backoffs + [BackoffDelay(base, k)] else backoffs
  }

  /** The budget after an attempt's response: updated from its headers when a response
      arrived, unchanged when the request could not be sent. */
  function Absorb(b: Budget, o: Outcome): Budget {
    match o
    case SendFailed(_) => b
    case ReadFailed(_, headers, _) => Update(b, headers)
    case Answered(_, headers, _) => Update(b, headers)
  }

  /** The budget the loop carries into attempt n after attempts k..n-1 have answered. */
  function Absorbed(b: Budget, steps: seq<Step>, k: nat, n: nat): Budget
    requires k <= n <= |steps|
    decreases n - k
  {
    if k == n then b else Absorbed(Absorb(b, steps[k].outcome), steps, k + 1, n)
  }

  /** One pass of the loop body at attempt k: it either stops the call, having sent k + 1
      requests, or stops it during a wait the context interrupted, having sent k, or records
      a retryable failure and goes on. */
  function Perform(p: Policy, k: nat, s: Step, st: Progress): (t: Turn)
    ensures t.Again? ==> t.next.backoffs == Began(p.baseDelay, k, st.backoffs)
    ensures t.Again? ==> t.next.last.Some?
    ensures t.Done? ==> t.run.backoffs == Began(p.baseDelay, k, st.backoffs)
    ensures t.Done? && t.run.result == Failure(Cancelled) ==>
              t.run.attempts == k && (s.backoffCancelled || s.waitCancelled)
    ensures t.Done? && t.run.result != Failure(Cancelled) ==> t.run.attempts == k + 1
    ensures t.Done? ==> !(t.run.result.Failure? && t.run.result.error.MaxRetriesExceeded?)
    ensures t.Again? ==> t.next.budget == Absorb(st.budget, s.outcome)
    ensures k > 0 && s.backoffCancelled ==>
              t.Done? && t.run.result == Failure(Cancelled) && t.run.attempts == k
    ensures !(k > 0 && s.backoffCancelled) && GateWait(st.budget, p.buffer, s.now).Some? && s.waitCancelled ==>
              t.Done? && t.run.result == Failure(Cancelled) && t.run.attempts == k
  {
    if k > 0 && s.backoffCancelled then
      Done(Run(Failure(Cancelled), k, st.budget, st.backoffs + [BackoffDelay(p.baseDelay, k)], st.throttles))
    else
      var backoffs := if k > 0 then st.backoffs + [BackoffDelay(p.baseDelay, k)] else st.backoffs;
      var gate := GateWait(st.budget, p.buffer, s.now);
      var throttles := if gate.Some? then st.throttles + [gate.value] else st.throttles;
      if gate.Some? && s.waitCancelled then
        Done(Run(Failure(Cancelled), k, st.budget, backoffs, throttles))
      else
        match s.outcome
        case SendFailed(reason) =>
          Again(Progress(st.budget, Some(Transport(reason)), backoffs, throttles))
        case ReadFailed(_, headers, reason) =>
          Again(Progress(Update(st.budget, headers), Some(ReadBody(reason)), backoffs, throttles))
        case Answered(status, headers, body) =>
          var budget := Update(st.budget, headers);
          if status == 429 then
            Again(Progress(budget, Some(RateLimited), backoffs, throttles))
          else if status >= 400 then
            Done(Run(Failure(Api(status, Detail(body))), k + 1, budget, backoffs, throttles))
          else
            Done(Run(Success(body.raw), k + 1, budget, backoffs, throttles))
  }

  /** The loop state before attempt k has begun exactly the backoffs of attempts 1..k-1. */
  predicate OnSchedule(p: Policy, k: nat, st: Progress) {
    |st.backoffs| == (if k == 0 then 0 else k - 1) && st.backoffs == Schedule(p.baseDelay, |st.backoffs|)
  }

  /** Attempts k, k+1, ... up to maxRetries. */
  function Attempt(p: Policy, steps: seq<Step>, k: nat, st: Progress): (r: Run)
    requires |steps| > p.maxRetries
    decreases p.maxRetries + 1 - k
    ensures r.attempts >= k
    ensures k <= p.maxRetries + 1 ==> r.attempts <= p.maxRetries + 1
    ensures r.result.Failure? && r.result.error.MaxRetriesExceeded? ==>
              r.attempts == (if k > p.maxRetries then k else p.maxRetries + 1)
    ensures r.result == Failure(Cancelled) ==>
              r.attempts < |steps| && (steps[r.attempts].backoffCancelled || steps[r.attempts].waitCancelled)
  {
    if k > p.maxRetries then
      Run(Failure(MaxRetriesExceeded(st.last)), k, st.budget, st.backoffs, st.throttles)
    else
      match Perform(p, k, steps[k], st)
      case Done(run) => run
      case Again(next) => Attempt(p, steps, k + 1, next)
  }

  lemma ScheduleGrows(base: int, n: nat)
    ensures Schedule(base, n) + [BackoffDelay(base, n + 1)] == Schedule(base, n + 1)
  {
  }

  /** Every backoff the call begins is the one its attempt number calls for, and one is begun
      before each attempt after the first (and before the attempt a cancellation prevented). */
  lemma {:induction false} AttemptOnSchedule(p: Policy, steps: seq<Step>, k: nat, st: Progress)
    requires |steps| > p.maxRetries
    requires OnSchedule(p, k, st)
    ensures var r := Attempt(p, steps, k, st);
      r.backoffs == Schedule(p.baseDelay, |r.backoffs|) &&
      |r.backoffs| == (if r.result == Failure(Cancelled) || r.attempts == 0 then r.attempts else r.attempts - 1)
    decreases p.maxRetries + 1 - k
  {
    if k <= p.maxRetries {
      if k > 0 {
        ScheduleGrows(p.baseDelay, k - 1);
      }
      match Perform(p, k, steps[k], st)
      case Done(run) =>
      case Again(next) =>
        AttemptOnSchedule(p, steps, k + 1, next);
    }
  }

  /** `do`: attempts 0 through maxRetries. */
  function Do(p: Policy, budget: Budget, steps: seq<Step>): (r: Run)
    requires |steps| > p.maxRetries
    ensures r.attempts <= (if p.maxRetries < 0 then 0 else p.maxRetries + 1)
  {
    Attempt(p, steps, 0, Progress(budget, None, [], []))
  }

  /** No wait precedes attempt 0; the wait before attempt k >= 1 is BackoffDelay(base, k). */
  lemma DoOnSchedule(p: Policy, budget: Budget, steps: seq<Step>)
    requires |steps| > p.maxRetries
    ensures var r := Do(p, budget, steps);
      r.backoffs == Schedule(p.baseDelay, |r.backoffs|) &&
      |r.backoffs| == (if r.result == Failure(Cancelled) || r.attempts == 0 then r.attempts else r.attempts - 1)
  {
    AttemptOnSchedule(p, steps, 0, Progress(budget, None, [], []));
  }

  /** An outcome after which the loop tries again: a send failure, a body-read failure or 429. */
  predicate Retryable(o: Outcome) {
    o.SendFailed? || o.ReadFailed? || o.status == 429
  }

  /** The failure recorded for a retryable outcome. */
  function Recorded(o: Outcome): Error
    requires Retryable(o)
  {
    match o
    case SendFailed(reason) => Transport(reason)
    case ReadFailed(_, _, reason) => ReadBody(reason)
    case Answered(_, _, _) => RateLimited
  }

  /** Neither wait of the step was interrupted by the context. */
  predicate Uninterrupted(s: Step) {
    !s.backoffCancelled && !s.waitCancelled
  }

  /** Steps k..n-1 are retryable and no wait from k to n is interrupted. */
  predicate RetriedThrough(steps: seq<Step>, k: nat, n: nat)
    requires n < |steps|
  {
    (forall i :: k <= i < n ==> Retryable(steps[i].outcome)) &&
    (forall i :: k <= i <= n ==> Uninterrupted(steps[i]))
  }

  lemma {:induction false} AttemptSettles(p: Policy, steps: seq<Step>, k: nat, n: nat, st: Progress)
    requires |steps| > p.maxRetries
    requires k <= n <= p.maxRetries
    requires RetriedThrough(steps, k, n)
    requires steps[n].outcome.Answered? && steps[n].outcome.status != 429
    ensures var r := Attempt(p, steps, k, st); var o := steps[n].outcome;
      r.attempts == n + 1 &&
      r.result == (if o.status >= 400 then Failure(Api(o.status, Detail(o.body))) else Success(o.body.raw))
    decreases n - k
  {
    if k < n {
      AttemptSettles(p, steps, k + 1, n, Perform(p, k, steps[k], st).next);
    }
  }

  /** After n retryable failures (n <= maxRetries) a response below 400 succeeds with its body
      on attempt n + 1: two 429s then a 200 take three attempts. */
  lemma RetriedUntilSuccess(p: Policy, budget: Budget, steps: seq<Step>, n: nat)
    requires |steps| > p.maxRetries
    requires n <= p.maxRetries
    requires RetriedThrough(steps, 0, n)
    requires steps[n].outcome.Answered? && steps[n].outcome.status < 400
    ensures Do(p, budget, steps).result == Success(steps[n].outcome.body.raw)
    ensures Do(p, budget, steps).attempts == n + 1
  {
    AttemptSettles(p, steps, 0, n, Progress(budget, None, [], []));
  }

  /** A status of 400 or more other than 429 ends the call at that attempt, with no retry; the
      error carries the status and the envelope's message if non-empty, else the raw body. */
  lemma TerminalNotRetried(p: Policy, budget: Budget, steps: seq<Step>, status: int, headers: RateHeaders, body: Body)
    requires |steps| > p.maxRetries >= 0
    requires Uninterrupted(steps[0]) && steps[0].outcome == Answered(status, headers, body)
    requires status >= 400 && status != 429
    ensures Do(p, budget, steps).attempts == 1
    ensures Do(p, budget, steps).result.Failure?
    ensures Do(p, budget, steps).result.error.Api? && Do(p, budget, steps).result.error.status == status
    ensures body.message.Some? && body.message.value != "" ==> Do(p, budget, steps).result.error.detail == body.message.value
    ensures (body.message.None? || body.message.value == "") ==> Do(p, budget, steps).result.error.detail == body.raw
  {
    AttemptSettles(p, steps, 0, 0, Progress(budget, None, [], []));
  }

  lemma {:induction false} AttemptExhausts(p: Policy, steps: seq<Step>, k: nat, st: Progress)
    requires |steps| > p.maxRetries
    requires k <= p.maxRetries
    requires RetriedThrough(steps, k, p.maxRetries) && Retryable(steps[p.maxRetries].outcome)
    ensures var r := Attempt(p, steps, k, st);
      r.attempts == p.maxRetries + 1 &&
      r.result == Failure(MaxRetriesExceeded(Some(Recorded(steps[p.maxRetries].outcome))))
    decreases p.maxRetries - k
  {
    var next := Perform(p, k, steps[k], st).next;
    if k < p.maxRetries {
      AttemptExhausts(p, steps, k + 1, next);
    } else {
      assert Attempt(p, steps, k + 1, next).result == Failure(MaxRetriesExceeded(next.last));
    }
  }

  /** When every attempt fails retryably the call makes exactly maxRetries + 1 attempts and
      fails with "max retries exceeded" wrapping the last attempt's failure: with maxRetries 3
      and nothing but 429s, four attempts and a wrapped rate-limit error. */
  lemma RetriesExhausted(p: Policy, budget: Budget, steps: seq<Step>)
    requires |steps| > p.maxRetries >= 0
    requires RetriedThrough(steps, 0, p.maxRetries) && Retryable(steps[p.maxRetries].outcome)
    ensures Do(p, budget, steps).attempts == p.maxRetries + 1
    ensures Do(p, budget, steps).result == Failure(MaxRetriesExceeded(Some(Recorded(steps[p.maxRetries].outcome))))
  {
    AttemptExhausts(p, steps, 0, Progress(budget, None, [], []));
  }

  lemma {:induction false} AttemptCancelled(p: Policy, steps: seq<Step>, k: nat, n: nat, st: Progress)
    requires |steps| > p.maxRetries
    requires k <= n <= p.maxRetries && 1 <= n
    requires forall i :: k <= i < n ==> Retryable(steps[i].outcome) && Uninterrupted(steps[i])
    requires steps[n].backoffCancelled
    ensures Attempt(p, steps, k, st).result == Failure(Cancelled)
    ensures Attempt(p, steps, k, st).attempts == n
    decreases n - k
  {
    if k < n {
      AttemptCancelled(p, steps, k + 1, n, Perform(p, k, steps[k], st).next);
    }
  }

  /** A context that fires during the backoff before attempt n ends the call with the context
      error after n attempts: no further request is sent. */
  lemma CancelledDuringBackoff(p: Policy, budget: Budget, steps: seq<Step>, n: nat)
    requires |steps| > p.maxRetries
    requires 1 <= n <= p.maxRetries
    requires forall i :: 0 <= i < n ==> Retryable(steps[i].outcome) && Uninterrupted(steps[i])
    requires steps[n].backoffCancelled
    ensures Do(p, budget, steps).result == Failure(Cancelled)
    ensures Do(p, budget, steps).attempts == n
  {
    AttemptCancelled(p, steps, 0, n, Progress(budget, None, [], []));
  }

  lemma {:induction false} AttemptRateWaitCancelled(p: Policy, steps: seq<Step>, k: nat, n: nat, st: Progress)
    requires |steps| > p.maxRetries
    requires k <= n <= p.maxRetries
    requires forall i :: k <= i < n ==> Retryable(steps[i].outcome) && Uninterrupted(steps[i])
    requires (n == 0 || !steps[n].backoffCancelled) && steps[n].waitCancelled
    requires GateWait(Absorbed(st.budget, steps, k, n), p.buffer, steps[n].now).Some?
    ensures Attempt(p, steps, k, st).result == Failure(Cancelled)
    ensures Attempt(p, steps, k, st).attempts == n
    decreases n - k
  {
    if k < n {
      AttemptRateWaitCancelled(p, steps, k + 1, n, Perform(p, k, steps[k], st).next);
    }
  }

  /** A context that fires while attempt n waits at the rate gate (the budget the earlier
      responses left is below the buffer and its reset is ahead) ends the call with the context
      error after n attempts: no further request is sent. */
  lemma CancelledDuringRateWait(p: Policy, budget: Budget, steps: seq<Step>, n: nat)
    requires |steps| > p.maxRetries
    requires n <= p.maxRetries
    requires forall i :: 0 <= i < n ==> Retryable(steps[i].outcome) && Uninterrupted(steps[i])
    requires (n == 0 || !steps[n].backoffCancelled) && steps[n].waitCancelled
    requires GateWait(Absorbed(budget, steps, 0, n), p.buffer, steps[n].now).Some?
    ensures Do(p, budget, steps).result == Failure(Cancelled)
    ensures Do(p, budget, steps).attempts == n
  {
    AttemptRateWaitCancelled(p, steps, 0, n, Progress(budget, None, [], []));
  }

  lemma MulMonotone(a: int, b: int)
    requires a >= 1 && b >= 0
    ensures a * b >= b
  {
    assert a * b == (a - 1) * b + b;
  }

  /** Without 64-bit overflow the delay before attempt k is base * 2^(k-1). */
  lemma BackoffExact(base: int, k: nat)
    requires base >= 1 && k >= 1
    requires base * Pow2(k - 1) <= Decimal.MaxInt64
    ensures BackoffDelay(base, k) == base * Pow2(k - 1)
  {
    MulMonotone(base, Pow2(k - 1));
    assert Decimal.Wrap64(Pow2(k - 1)) == Pow2(k - 1);
  }

  /** Successive backoffs double while they fit in a Duration. */
  lemma BackoffDoubles(base: int, k: nat)
    requires base >= 1 && k >= 1
    requires base * Pow2(k) <= Decimal.MaxInt64
    ensures BackoffDelay(base, k + 1) == 2 * BackoffDelay(base, k)
  {
    assert base * Pow2(k) == 2 * (base * Pow2(k - 1));
    BackoffExact(base, k + 1);
    BackoffExact(base, k);
  }

  /** Go's shift wraps: for 64 or more retries the multiplier is zero and the backoff vanishes. */
  lemma BackoffVanishes(base: int, k: nat)
    requires k >= 65
    ensures BackoffDelay(base, k) == 0
  {
    Pow2Multiple(k - 1);
  }

  lemma {:induction false} Pow2Multiple(n: nat)
    requires n >= 64
    ensures Pow2(n) % Decimal.TwoTo64 == 0
  {
    if n > 64 {
      Pow2Multiple(n - 1);
    } else {
      Pow2At64();
    }
  }

  lemma {:induction false} Pow2Add(a: nat, b: nat)
    ensures Pow2(a + b) == Pow2(a) * Pow2(b)
    decreases b
  {
    if b > 0 {
      Pow2Add(a, b - 1);
      assert Pow2(a + b) == 2 * Pow2(a + b - 1);
    }
  }

  lemma Pow2At64()
    ensures Pow2(64) == Decimal.TwoTo64
  {
    assert Pow2(8) == 256;
    Pow2Add(8, 8);
    Pow2Add(16, 16);
    Pow2Add(32, 32);
  }

  /** The loop of `do` as the source writes it: a counted loop whose body either returns or
      records the failure and continues. It computes exactly what Do describes. */
  method Execute(p: Policy, budget0: Budget, steps: seq<Step>) returns (r: Run)
    requires |steps| > p.maxRetries
    ensures r == Do(p, budget0, steps)
  {
    var attempt: nat := 0;
    var budget := budget0;
    var lastErr: Option<Error> := None;
    var backoffs: seq<int> := [];
    var throttles: seq<int> := [];
    while attempt <= p.maxRetries
      invariant attempt == 0 || attempt <= p.maxRetries + 1
      invariant Attempt(p, steps, attempt, Progress(budget, lastErr, backoffs, throttles)) == Do(p, budget0, steps)
      decreases p.maxRetries + 1 - attempt
    {
      var s := steps[attempt];
      ghost var st := Progress(budget, lastErr, backoffs, throttles);
      ghost var turn := Perform(p, attempt, s, st);
      assert Attempt(p, steps, attempt, st) == (match turn case Done(run) => run case Again(next) => Attempt(p, steps, attempt + 1, next));
      if attempt > 0 {
        backoffs := backoffs + [BackoffDelay(p.baseDelay, attempt)];
        if s.backoffCancelled {
          assert turn == Done(Run(Failure(Cancelled), attempt, budget, backoffs, throttles));
          return Run(Failure(Cancelled), attempt, budget, backoffs, throttles);
        }
      }
      var wait := GateWait(budget, p.buffer, s.now);
      if wait.Some? {
        throttles := throttles + [wait.value];
        if s.waitCancelled {
          assert turn == Done(Run(Failure(Cancelled), attempt, budget, backoffs, throttles));
          return Run(Failure(Cancelled), attempt, budget, backoffs, throttles);
        }
      }
      match s.outcome {
        case SendFailed(reason) =>
          lastErr := Some(Transport(reason));
        case ReadFailed(_, headers, reason) =>
          budget := Update(budget, headers);
          lastErr := Some(ReadBody(reason));
        case Answered(status, headers, body) =>
          budget := Update(budget, headers);
          if status == 429 {
            lastErr := Some(RateLimited);
          } else if status >= 400 {
            assert turn == Done(Run(Failure(Api(status, Detail(body))), attempt + 1, budget, backoffs, throttles));
            return Run(Failure(Api(status, Detail(body))), attempt + 1, budget, backoffs, throttles);
          } else {
            assert turn == Done(Run(Success(body.raw), attempt + 1, budget, backoffs, throttles));
            return Run(Success(body.raw), attempt + 1, budget, backoffs, throttles);
          }
      }
      assert turn == Again(Progress(budget, lastErr, backoffs, throttles));
      attempt := attempt + 1;
    }
    return Run(Failure(MaxRetriesExceeded(lastErr)), attempt, budget, backoffs, throttles);
  }
}

=== FILE: types.dfy ===
/** The records the client exchanges with the remote service (internal/client/types.go).
    Floating-point fields (priority, value) are carried as opaque reals that are only copied. */
module Types {
  import opened Wrappers
  import opened Dates

  datatype Tag = Tag(id: string, name: string)

  /** Which days of the week a daily repeats on. */
  datatype RepeatConfig = RepeatConfig(
    monday: bool, tuesday: bool, wednesday: bool, thursday: bool,
    friday: bool, saturday: bool, sunday: bool)

  /** A task of any kind: `kind` is the JSON "type" field (habit, daily, todo or reward).
      `tags` is None for Go's nil slice and Some for an allocated one, possibly empty;
      `up`, `down`, `startDate` and `repeat` are None for nil pointers. */
  datatype Task = Task(
    id: string, kind: string, text: string, notes: string, alias: string,
    tags: Option<seq<string>>, priority: real, attribute: string,
    up: Option<bool>, down: Option<bool>, counterUp: int, counterDown: int,
    frequency: string, everyX: int, startDate: Option<CalendarDate>, repeat: Option<RepeatConfig>,
    daysOfMonth: seq<int>, weeksOfMonth: seq<int>, streak: int, isDue: bool,
    nextDue: seq<string>, completed: bool, value: real)

  /** `client.Task{}`: every field at its Go zero value. */
  const BlankTask := Task(
    "", "", "", "", "", None, 0.0, "", None, None, 0, 0,
    "", 0, None, None, [], [], 0, false, [], false, 0.0)

  /** The tag IDs of a task, reading a nil slice as empty, as Go's range and len do. */
  function TagIDs(t: Task): seq<string> {
    t.tags.GetOr([])
  }

  /** The "tags" member json.Marshal writes for a task. The field is tagged `omitempty`, so
      a nil slice and an empty one are both left out of the request (None). */
  function TagsOnWire(t: Task): (w: Option<seq<string>>)
    ensures w.None? <==> t.tags.None? || t.tags.value == []
    ensures w.Some? ==> w == t.tags
  {
    if |TagIDs(t)| == 0 then None else t.tags
  }

  datatype WebhookOptions = WebhookOptions(
    created: bool, updated: bool, deleted: bool, scored: bool, checklistScored: bool)

  datatype Webhook = Webhook(
    id: string, url: string, labelText: string, kind: string, enabled: bool, options: WebhookOptions)

  const NoWebhookOptions := WebhookOptions(false, false, false, false, false)

  /** The ID each kind of entity is filed and looked up under. */
  function TagKey(t: Tag): string { t.id }
  function TaskKey(t: Task): string { t.id }
  function WebhookKey(w: Webhook): string { w.id }
}

=== FILE: usertasks.dfy ===
/** The user-tasks data source (internal/datasources/user_tasks/datasource.go): every task
    of the user, bucketed by type, with tag IDs resolved to tag names. */
module UserTasks {
  import opened Wrappers
  import opened Errors
  import opened Types
  import opened Collections
  import opened Retry
  import opened Client

  datatype DailyOutput = DailyOutput(
    id: string, text: string, notes: string, completed: bool, isDue: bool,
    tags: seq<string>, streak: int, frequency: string)

  datatype HabitOutput = HabitOutput(
    id: string, text: string, notes: string, counterUp: int, counterDown: int, tags: seq<string>)

  datatype TodoOutput = TodoOutput(id: string, text: string, notes: string, completed: bool, tags: seq<string>)

  datatype TasksOutput = TasksOutput(dailies: seq<DailyOutput>, habits: seq<HabitOutput>, todos: seq<TodoOutput>)

  const NoTasks := TasksOutput([], [], [])

  /** The tag ID to name map: a later tag with the same ID overwrites an earlier one. */
  function TagNames(tags: seq<Tag>): (m: map<string, string>)
    ensures forall k :: k in m <==> LastIndexOf(tags, TagKey, k).Some?
    ensures forall k :: k in m ==> m[k] == tags[LastIndexOf(tags, TagKey, k).value].name
  {
    var index := Index(tags, TagKey);
    map k | k in index :: index[k].name
  }

  /** The names of a task's tags in the task's order, without the IDs the map lacks. */
  function TagNamesOf(t: Task, names: map<string, string>): (r: seq<string>)
    ensures |r| <= |TagIDs(t)|
    ensures (forall i :: 0 <= i < |TagIDs(t)| ==> TagIDs(t)[i] in names) ==>
              |r| == |TagIDs(t)| && forall i :: 0 <= i < |r| ==> r[i] == names[TagIDs(t)[i]]
  {
    Resolve(TagIDs(t), names)
  }

  function DailyOf(t: Task, names: map<string, string>): DailyOutput {
    DailyOutput(t.id, t.text, t.notes, t.completed, t.isDue, TagNamesOf(t, names), t.streak, t.frequency)
  }

  function HabitOf(t: Task, names: map<string, string>): HabitOutput {
    HabitOutput(t.id, t.text, t.notes, t.counterUp, t.counterDown, TagNamesOf(t, names))
  }

  function TodoOf(t: Task, names: map<string, string>): TodoOutput {
    TodoOutput(t.id, t.text, t.notes, t.completed, TagNamesOf(t, names))
  }

  /** Appends one task to the bucket its type names; other types are dropped. */
  function Place(out: TasksOutput, t: Task, names: map<string, string>): TasksOutput {
    match t.kind
    case "daily" => out.(dailies := out.dailies + [DailyOf(t, names)])
    case "habit" => out.(habits := out.habits + [HabitOf(t, names)])
    case "todo" => out.(todos := out.todos + [TodoOf(t, names)])
    case _ => out
  }

  /** How many tasks carry the given type. */
  function KindCount(tasks: seq<Task>, kind: string): nat {
    if |tasks| == 0 then 0
    else KindCount(tasks[..|tasks| - 1], kind) + (if tasks[|tasks| - 1].kind == kind then 1 else 0)
  }

  /** The three buckets, filled in input order from empty lists. */
  function Buckets(tasks: seq<Task>, names: map<string, string>): (out: TasksOutput)
    ensures |out.dailies| == KindCount(tasks, "daily")
    ensures |out.habits| == KindCount(tasks, "habit")
    ensures |out.todos| == KindCount(tasks, "todo")
    ensures forall d :: d in out.dailies ==> exists i :: 0 <= i < |tasks| && tasks[i].kind == "daily" && d == DailyOf(tasks[i], names)
    ensures forall h :: h in out.habits ==> exists i :: 0 <= i < |tasks| && tasks[i].kind == "habit" && h == HabitOf(tasks[i], names)
    ensures forall d :: d in out.todos ==> exists i :: 0 <= i < |tasks| && tasks[i].kind == "todo" && d == TodoOf(tasks[i], names)
  {
    if |tasks| == 0 then NoTasks
    else Place(Buckets(tasks[..|tasks| - 1], names), tasks[|tasks| - 1], names)
  }

  /** Each task lands in at most one bucket, so the outputs never outnumber the tasks. */
  lemma {:induction false} KindsPartition(tasks: seq<Task>)
    ensures KindCount(tasks, "daily") + KindCount(tasks, "habit") + KindCount(tasks, "todo") <= |tasks|
  {
    if |tasks| > 0 {
      KindsPartition(tasks[..|tasks| - 1]);
    }
  }

  function Concat(a: TasksOutput, b: TasksOutput): TasksOutput {
    TasksOutput(a.dailies + b.dailies, a.habits + b.habits, a.todos + b.todos)
  }

  /** Placing after a concatenation places into the second part. */
  lemma PlaceConcat(x: TasksOutput, y: TasksOutput, t: Task, names: map<string, string>)
    ensures Place(Concat(x, y), t, names) == Concat(x, Place(y, t, names))
  {
    match t.kind
    case "daily" => assert x.dailies + (y.dailies + [DailyOf(t, names)]) == (x.dailies + y.dailies) + [DailyOf(t, names)];
    case "habit" => assert x.habits + (y.habits + [HabitOf(t, names)]) == (x.habits + y.habits) + [HabitOf(t, names)];
    case "todo" => assert x.todos + (y.todos + [TodoOf(t, names)]) == (x.todos + y.todos) + [TodoOf(t, names)];
    case _ =>
  }

  /** Bucketing works piecewise, so each bucket keeps the input order. */
  lemma {:induction false} BucketsAppend(a: seq<Task>, b: seq<Task>, names: map<string, string>)
    ensures Buckets(a + b, names) == Concat(Buckets(a, names), Buckets(b, names))
    decreases |b|
  {
    if |b| == 0 {
      assert a + b == a;
      assert Concat(Buckets(a, names), NoTasks) == Buckets(a, names);
    } else {
      var b' := b[..|b| - 1];
      BucketsAppend(a, b', names);
      assert (a + b)[..|a + b| - 1] == a + b';
      assert (a + b)[|a + b| - 1] == b[|b| - 1];
      PlaceConcat(Buckets(a, names), Buckets(b', names), b[|b| - 1], names);
    }
  }

  /** A single task: a daily, habit or todo becomes one entry of its bucket, anything else
      nothing. */
  lemma BucketsOne(t: Task, names: map<string, string>)
    ensures Buckets([t], names) == Place(NoTasks, t, names)
  {
    assert [t][..0] == [];
  }

  /** The loop of the source, appending to three lists initialised empty. */
  method Categorize(tasks: seq<Task>, names: map<string, string>) returns (out: TasksOutput)
    ensures out == Buckets(tasks, names)
  {
    out := TasksOutput([], [], []);
    var i := 0;
    while i < |tasks|
      invariant 0 <= i <= |tasks|
      invariant out == Buckets(tasks[..i], names)
    {
      var task := tasks[i];
      var resolved := TagNamesOf(task, names);
      if task.kind == "daily" {
        out := out.(dailies := out.dailies + [DailyOutput(task.id, task.text, task.notes, task.completed, task.isDue, resolved, task.streak, task.frequency)]);
      } else if task.kind == "habit" {
        out := out.(habits := out.habits + [HabitOutput(task.id, task.text, task.notes, task.counterUp, task.counterDown, resolved)]);
      } else if task.kind == "todo" {
        out := out.(todos := out.todos + [TodoOutput(task.id, task.text, task.notes, task.completed, resolved)]);
      }
      assert tasks[..i + 1][..i] == tasks[..i];
      i := i + 1;
    }
    assert tasks[..|tasks|] == tasks;
  }

  /** Read: all tasks, then all tags, then the buckets. A failed task list stops before the tag
      list is requested; a failed tag list yields no output. Neither cache is consulted or
      changed. */
  function Read(c: Client, taskSteps: seq<Step>, tasks: Option<seq<Task>>, tagSteps: seq<Step>, tags: Option<seq<Tag>>): (r: Reply<TasksOutput>)
    requires Covers(c, taskSteps) && Covers(c, tagSteps)
    ensures r.client.tags == c.tags && r.client.tasks == c.tasks
    ensures GetAllTasks(c, taskSteps, tasks).result.Failure? ==>
              r.requests == 1 && r.result == Failure(GetAllTasks(c, taskSteps, tasks).result.error)
    ensures GetAllTasks(c, taskSteps, tasks).result.Success? ==> r.requests == 2
    ensures r.result.Success? <==>
              GetAllTasks(c, taskSteps, tasks).result.Success? && GetAllTags(GetAllTasks(c, taskSteps, tasks).client, tagSteps, tags).result.Success?
    ensures r.result.Success? ==> r.result.value == Buckets(tasks.value, TagNames(tags.value))
  {
    var ts := GetAllTasks(c, taskSteps, tasks);
    if ts.result.Failure? then Reply(ts.client, Failure(ts.result.error), 1)
    else
      var gs := GetAllTags(ts.client, tagSteps, tags);
      if gs.result.Failure? then Reply(gs.client, Failure(gs.result.error), 2)
      else Reply(gs.client, Success(Buckets(ts.result.value, TagNames(gs.result.value))), 2)
  }

  /** With no tasks the output is three empty lists, whatever the tags. */
  lemma NoTasksNoOutput(names: map<string, string>)
    ensures Buckets([], names) == TasksOutput([], [], [])
  {
  }
}

=== FILE: webhook.dfy ===
/** The webhook resource's conversions (internal/resources/webhook/resource.go). */
module WebhookResource {
  import opened Wrappers
  import opened Types
  import opened HostValues

  datatype OptionsModel = OptionsModel(
    created: Value<bool>, updated: Value<bool>, deleted: Value<bool>,
    scored: Value<bool>, checklistScored: Value<bool>)

  /** `options` is None when the block is absent. */
  datatype WebhookModel = WebhookModel(
    id: Value<string>, url: Value<string>, labelText: Value<string>, kind: Value<string>,
    enabled: Value<bool>, options: Option<OptionsModel>)

  /** The event flags sent: all off without a block, and within one a flag is on only when
      it is known to be true. */
  function OptionsOf(o: Option<OptionsModel>): (r: WebhookOptions)
    ensures o.None? ==> r == NoWebhookOptions
    ensures o.Some? ==>
      && r.created == (o.value.created == Known(true))
      && r.updated == (o.value.updated == Known(true))
      && r.deleted == (o.value.deleted == Known(true))
      && r.scored == (o.value.scored == Known(true))
      && r.checklistScored == (o.value.checklistScored == Known(true))
  {
    match o
    case None => NoWebhookOptions
    case Some(om) =>
      WebhookOptions(
        WithDefault(om.created, false), WithDefault(om.updated, false), WithDefault(om.deleted, false),
        WithDefault(om.scored, false), WithDefault(om.checklistScored, false))
  }

  /** modelToWebhook: the ID is left for the service to assign. */
  function ModelToWebhook(m: WebhookModel): (w: Webhook)
    ensures w.id == ""
    ensures w.url == WithDefault(m.url, "") && w.labelText == WithDefault(m.labelText, "")
    ensures w.kind == WithDefault(m.kind, "") && w.enabled == (m.enabled == Known(true))
    ensures w.options == OptionsOf(m.options)
  {
    Webhook("", WithDefault(m.url, ""), WithDefault(m.labelText, ""), WithDefault(m.kind, ""),
            WithDefault(m.enabled, false), OptionsOf(m.options))
  }

  /** updateModelFromWebhook: every attribute but the ID mirrors the webhook, and the options
      block is always present. */
  function UpdateModelFromWebhook(m: WebhookModel, w: Webhook): (m': WebhookModel)
    ensures m'.id == m.id
    ensures m'.url == Known(w.url) && m'.labelText == Known(w.labelText) && m'.kind == Known(w.kind)
    ensures m'.enabled == Known(w.enabled)
    ensures m'.options.Some? && OptionsOf(m'.options) == w.options
  {
    m.(url := Known(w.url), labelText := Known(w.labelText), kind := Known(w.kind),
       enabled := Known(w.enabled),
       options := Some(OptionsModel(
         Known(w.options.created), Known(w.options.updated), Known(w.options.deleted),
         Known(w.options.scored), Known(w.options.checklistScored))))
  }

  /** Refreshing from a webhook and converting back sends that webhook without its ID. */
  lemma WebhookRoundTrip(m: WebhookModel, w: Webhook)
    ensures ModelToWebhook(UpdateModelFromWebhook(m, w)) == w.(id := "")
  {
  }

  /** A plan with every attribute and flag known reads back unchanged when the service echoes
      what it was sent. */
  predicate Settled(m: WebhookModel) {
    && m.url.Known? && m.labelText.Known? && m.kind.Known? && m.enabled.Known? && m.options.Some?
    && m.options.value.created.Known? && m.options.value.updated.Known? && m.options.value.deleted.Known?
    && m.options.value.scored.Known? && m.options.value.checklistScored.Known?
  }

  lemma SettledRoundTrip(m: WebhookModel)
    requires Settled(m)
    ensures UpdateModelFromWebhook(m, ModelToWebhook(m)) == m
  {
  }
}

=== FILE: wrappers.dfy ===
/** Optional values and success/failure results, the shapes every operation of the
    client returns in place of Go's nil pointers and (value, error) pairs. */
module Wrappers {

  datatype Option<+T> = None | Some(value: T) {

    /** The wrapped value, or `default` when there is none. */
    function GetOr(default: T): T {
      match this
      case Some(v) => v
      case None => default
    }
  }

  datatype Result<+R, +E> = Success(value: R) | Failure(error: E) {

    predicate IsFailure() {
      Failure?
    }
  }
}
